=== FILE: README.md ===
# Financial analysis dashboard — Dafny model

This project models the core of a small financial-analysis dashboard. A
FastAPI backend looks up a listed company's disclosure code in the
disclosure service's company list. It collects the four classes of key
financial indicators (profitability 수익성, stability 안정성, growth 성장성,
activity 활동성) for a year and report type. It folds the indicators into
normalised radar scores, an overall score and a letter grade. The backend
also defines `get_interpretation`, which rates a value against fixed
per-category thresholds, but no request handler calls it. A Next.js page
drives the analysis through a search form. It draws one bar-chart panel per
category, rating each bar with its own copy of the threshold tables, plus a
radar chart. FinancialMetrics.LabelsMatchBackend relates the two copies of
the tables.

The modules follow the program's structure:

- `Wrappers`: `Option` and `Result` stand in for `None`/`null` and for raised HTTP errors.
- `Text`: substring search, first-occurrence replace, JavaScript `trim`, ASCII lower-casing and decimal printing.
- `Seqs`: first-match scan, filter, de-duplication in first-appearance order, sum and mean.
- `Models`: the records exchanged between backend and frontend.
- `Criteria`: the shared "first threshold the value meets" scan over a four-tier table.
- `DartService`: `backend/dart_service.py`.
- `MainApi`: `backend/main.py`.
- `FinancialMetrics`, `RadarChart`, `SearchForm`, `Page`: the frontend components and page.

Numbers are `real`. I/O is replaced by parameters:

- The parsed company list is a sequence of `Company` records.
- The per-class indicator request is a function from (code, year, report code, class code) to rows.
- An awaited frontend request is passed to its handler as its outcome.

## Model

| member | source | states |
|---|---|---|
| DartService.ScanCorpList | backend/dart_service.py:45-55 | The loop stops at the first exact match or at the end of the list. Every earlier entry is inexact. The partial matches are exactly the containing entries before the stop, in list order. |
| DartService.GetCorpCode | backend/dart_service.py:36-63 | Equals the functional lookup `CorpCodeOf`. The list is scanned up to the first exact name match. If that match has a truthy code, the code is returned. Otherwise the result is the code of the first entry before the stop whose name contains the query. Otherwise nothing. |
| DartService.ExactMatchWins | backend/dart_service.py:51-58 | The first exact name match with a non-empty code is returned, whatever partial matches precede it. |
| DartService.FirstPartialMatchWins | backend/dart_service.py:54-61 | With no exact match, the first entry containing the query supplies the code. |
| DartService.NoMatchNoCode | backend/dart_service.py:62-63 | When no name contains the query, the lookup yields nothing. |
| DartService.EmptyExactCodeStopsScan | backend/dart_service.py:51-63 | An exact match whose code is empty still ends the scan. Partial matches after it are never seen, so with none before it the lookup yields nothing. |
| DartService.FetchAllIndexes | backend/dart_service.py:86-101 | Its length is the sum of the lengths of the four class answers (M210000–M240000). |
| DartService.FetchAllIndexesOrder | backend/dart_service.py:88-99 | The table is the four class answers joined in class order M210000, M220000, M230000, M240000. An empty answer adds nothing. |
| DartService.FetchAllIndexesEmpty | backend/dart_service.py:95-101 | The table is empty iff every one of the four class requests returns nothing. |
| DartService.GetInterpretation | backend/dart_service.py:103-138 | The result is one of the category table's four outcomes. An unknown category uses the profitability table. |
| DartService.ProfitabilityTiers | backend/dart_service.py:106-111 | Each profitability label holds exactly on its value range: ≥15, [10,15), [5,10), <5. |
| DartService.StabilityTiers | backend/dart_service.py:112-117 | Each stability label holds exactly on its value range: ≥200, [150,200), [100,150), <100. |
| DartService.GrowthTiers | backend/dart_service.py:118-123 | Each growth label holds exactly on its value range: ≥20, [10,20), [0,10), <0. |
| DartService.ActivityTiers | backend/dart_service.py:124-129 | Each activity label holds exactly on its value range: ≥5, [3,5), [1,3), <1. |
| DartService.UnknownCategoryIsProfitability | backend/dart_service.py:132 | Any category outside the four is interpreted exactly like profitability. |
| DartService.InterpretationMonotone | backend/dart_service.py:134-138 | A larger value never receives a lower tier. |
| Criteria.Classify | backend/dart_service.py:134-138 | The tier is the first one whose threshold the value meets, falling back to poor. Each tier holds iff the value lies in its closed-open band. |
| Criteria.ClassifyMonotone | backend/dart_service.py:134-136 | Classification is monotone in the value for any table with descending thresholds. |
| Criteria.ThresholdInclusive | backend/dart_service.py:135 | A value equal to a threshold meets it (`>=`). |
| DartService.Clamp | backend/dart_service.py:150 | `min(100, max(0, x))`: the identity on [0,100], 0 below and 100 above. |
| DartService.Normalize | backend/dart_service.py:149-156 | Every normalised category score lies in [0,100]. |
| DartService.NormalizeEndpoints | backend/dart_service.py:149-156 | The averages mapping to 100 are 20, 200, 20 and 5 (profitability, stability, growth, activity). The average mapping to 0 is 0, or -20 for growth. Anything unknown scales like activity. |
| DartService.NormalizeMonotone | backend/dart_service.py:149-156 | A higher category average never gives a lower normalised score. |
| DartService.Grade | backend/dart_service.py:164-173 | The grade is one of the five grade strings. |
| DartService.GradeSteps | backend/dart_service.py:164-173 | Each grade holds exactly on its score band: ≥80, [70,80), [60,70), [50,60), <50. |
| DartService.GradeMonotone | backend/dart_service.py:164-173 | A higher overall score never gets a lower grade. |
| DartService.GroupValues | backend/dart_service.py:145-146 | A class label that occurs in the rows has a non-empty value group, so its mean is defined. What the group holds is pinned by the next two lemmas. |
| DartService.GroupValuesConcat | backend/dart_service.py:145-146 | The value group of a concatenation of rows is the group of the first part followed by the group of the second. |
| DartService.GroupValuesSingle | backend/dart_service.py:145-146 | A single row adds its value to its own class's group and nothing to any other. With the concatenation lemma, a group holds the values of exactly the rows with that label, each once, in row order. |
| DartService.CalculateRadarData | backend/dart_service.py:140-180 | Requires at least one row. What it yields is stated by RadarDataSpec. |
| DartService.RadarDataSpec | backend/dart_service.py:140-180 | Categories are the row labels without repeats, in first-appearance order. There is one value per category: the normalised mean of that category's rows. The overall score is their mean and lies in [0,100]. The grade is the grade of that score. |
| DartService.RadarValuesWithin | backend/dart_service.py:144-160 | Every category score lies in [0,100]. |
| MainApi.SearchCompanies | backend/main.py:92-101 | The matches are the case-insensitive matches in list order, cut to `limit` entries. Because the limit is checked after appending, a limit ≤ 0 still keeps one match. |
| MainApi.SearchIgnoresQueryCase | backend/main.py:96 | Lower-casing the query does not change the matches. |
| MainApi.ParseCompanyRequest | backend/models.py:4-7 | `company_name` is required, else a 422. `year` and `reprt_code` default to "2023" and "11014". |
| MainApi.RequestBodyRoundTrip | backend/models.py:4-7 | Validating a request serialised under its snake-case field names gives the request back. |
| MainApi.ExtraFieldsIgnored | backend/models.py:4-7 | Keys other than the three fields do not affect validation. |
| MainApi.ConvertRows | backend/main.py:49-55 | One `FinancialIndex` per row, in row order, with label, name and value copied. |
| MainApi.AnalyzeCompany | backend/main.py:34-74 | A missing or empty code gives the company-not-found 404. No indicator rows gives the no-data 404. Otherwise the response is successful. It carries the completion message and echoes the company and year. It has one index per row, and its radar data is computed from the rows. |
| FinancialMetrics.GetInterpretation | frontend/components/FinancialMetrics.tsx:17-54 | The result is one of the category table's outcomes. Unknown categories use the profitability table. |
| FinancialMetrics.UnknownCategoryIsProfitability | frontend/components/FinancialMetrics.tsx:45 | An unknown category is interpreted like profitability. |
| FinancialMetrics.InterpretationMonotone | frontend/components/FinancialMetrics.tsx:47-53 | A larger value never gets a lower tier. |
| FinancialMetrics.LabelsMatchBackend | frontend/components/FinancialMetrics.tsx:17-54 | For every category and value the panel's tier and label equal the backend's. Only the colours differ. |
| FinancialMetrics.TierColors | frontend/components/FinancialMetrics.tsx:19-42 | The panel colours the tiers green, blue, amber and red. |
| FinancialMetrics.DisplayName | frontend/components/FinancialMetrics.tsx:63 | A name without "(" is unchanged. Otherwise exactly one character is added. |
| FinancialMetrics.DisplayNameBreaksBeforeFirstParen | frontend/components/FinancialMetrics.tsx:63 | The newline sits where the first "(" was. Removing it restores the name, and no "(" precedes it. |
| FinancialMetrics.Panel | frontend/components/FinancialMetrics.tsx:58-66 | A drawn panel holds only indicators of its category, with one chart entry each. Each entry carries the value unchanged, the display name and the interpretation. |
| FinancialMetrics.EmptyCategoryRendersNothing | frontend/components/FinancialMetrics.tsx:59-60 | A category draws nothing iff no indicator carries its label. |
| FinancialMetrics.PanelMembership | frontend/components/FinancialMetrics.tsx:59 | A panel lists exactly the input indicators carrying its label. |
| FinancialMetrics.PanelKeepsOrder | frontend/components/FinancialMetrics.tsx:59 | The panel of a concatenation is the concatenation of the panels, so input order is kept. |
| FinancialMetrics.PanelItemsConcat | frontend/components/FinancialMetrics.tsx:59-60 | For any two inputs, drawn or not, the indicators listed for their concatenation are those listed for the first followed by those for the second. |
| FinancialMetrics.PanelItemsSingle | frontend/components/FinancialMetrics.tsx:59 | A single indicator is listed once if it carries the category's label and not at all otherwise. With the concatenation lemma, a panel lists exactly the labelled indicators, each once, in input order. |
| FinancialMetrics.Panels | frontend/components/FinancialMetrics.tsx:58-60 | There is one slot per fixed category, in display order, and each drawn panel is its slot's category. |
| FinancialMetrics.UnknownLabelsNotShown | frontend/components/FinancialMetrics.tsx:58-60 | An indicator whose label is none of the four categories appears in no panel. |
| RadarChart.ChartData | frontend/components/RadarChart.tsx:13-16 | One point per category. A point past the end of the value list has no value. ChartDataZips states the pairing. |
| RadarChart.ChartDataZips | frontend/components/RadarChart.tsx:13-16 | For parallel lists, every point has a value. Reading categories and values back off the points returns both lists. |
| RadarChart.GetGradeColor | frontend/components/RadarChart.tsx:18-23 | Green iff the grade contains 'A'. Otherwise blue iff it contains 'B', otherwise amber iff it contains 'C', otherwise red. |
| RadarChart.AWinsOverBAndC | frontend/components/RadarChart.tsx:19 | A grade mentioning 'A' is green even if it also mentions B or C. |
| RadarChart.ScoreColors | frontend/components/RadarChart.tsx:18-23 | Composed with the backend grade, the colour is green from 70, blue on [60,70), amber on [50,60) and red below 50. |
| SearchForm.OptionsContainDefaults | frontend/components/SearchForm.tsx:15-16 | The year options print as "2023".."2019". The initial year and report code are listed options, equal to the backend defaults. |
| SearchForm.HandleSearch | frontend/components/SearchForm.tsx:20-30 | When the trimmed name is under two UTF-16 units (JavaScript `length`), or the search fails, the state is unchanged. Otherwise the results are stored and shown. |
| SearchForm.OnNameChange | frontend/components/SearchForm.tsx:72-79 | The typed value is stored. A short value hides the suggestions and leaves the results alone. A long enough value runs the search handler on the updated state. |
| SearchForm.HandleCompanySelect | frontend/components/SearchForm.tsx:32-35 | Selecting a company takes its name and hides the list. |
| SearchForm.HandleSubmit | frontend/components/SearchForm.tsx:37-42 | An analysis is issued iff the name has a non-whitespace character. It carries the untrimmed name and the chosen year and report code. |
| SearchForm.SubmitDisabled | frontend/components/SearchForm.tsx:142 | The submit button is disabled while loading or when the trimmed name is empty. SubmitEnabledIffIssued relates it to the submit handler. |
| SearchForm.SubmitEnabledIffIssued | frontend/components/SearchForm.tsx:142 | When not loading, the button is enabled exactly when submitting would issue an analysis. It is always disabled while loading. |
| SearchForm.InitialValid | frontend/components/SearchForm.tsx:14-18 | The form as first rendered satisfies the invariant: listed year and report code, no suggestions shown. |
| SearchForm.HandlersPreserveValid | frontend/components/SearchForm.tsx:14-128 | Every handler, including the two select handlers, keeps the selects on listed options and shows suggestions only for a searchable name. |
| SearchForm.ShortInputHidesSuggestions | frontend/components/SearchForm.tsx:74-78 | Typing a value whose trimmed JavaScript length is under two UTF-16 units hides the suggestion list. |
| Text.Trim | frontend/components/SearchForm.tsx:21 | `trim()` yields the slice of the name after its leading and before its trailing whitespace. Everything cut off is whitespace, and the result is empty iff the name is all whitespace. |
| SearchForm.SearchAllowedIff | frontend/components/SearchForm.tsx:21 | The length guard passes iff at least two characters remain after trimming, or exactly one character above U+FFFF (a surrogate pair). |
| SearchForm.SearchAllowedExamples | frontend/components/SearchForm.tsx:74 | A lone emoji, even padded with spaces, is long enough to search. A lone letter is not. |
| SearchForm.OnYearChange | frontend/components/SearchForm.tsx:112 | Choosing a listed year sets the year. The name, report code, search results and their visibility are left alone. |
| SearchForm.OnReportChange | frontend/components/SearchForm.tsx:128 | Choosing a listed report type sets the report code. The name, year, search results and their visibility are left alone. |
| Page.ClientAnalyze | frontend/lib/api.ts:11-20 | The awaited request resolves iff a reply body arrived, with that body. An HTTP error rejects with its detail, or with the default analysis message when the detail is empty. No reply rejects with the network message. |
| Page.HandleAnalyze | frontend/app/page.tsx:16-29 | After an analysis, loading is off. The result is set iff the request resolved and the error is set iff it rejected. An empty or absent message becomes the default. |
| Page.TransitionsKeepConsistent | frontend/app/page.tsx:12-29 | The initial, loading and finished states all keep the invariant. Loading clears everything, and result and error are never both set. |
| Page.FinishNeedsStart | frontend/app/page.tsx:17-19 | Without the clearing at the start, a stale error and a new result could be shown together. |
| Page.HandleSearchCompanies | frontend/app/page.tsx:31-37 | A failed search becomes the empty list. |
| Page.FailedSearchShowsNothing | frontend/app/page.tsx:31-37 | A failed search is never surfaced. The form stores an empty list and draws no suggestions. |
| Page.ShowsError | frontend/app/page.tsx:63 | The error banner is drawn for a non-empty error. ResultsIffSuccessfulResponse relates it to the analysis outcome. |
| Page.ShowsResults | frontend/app/page.tsx:87 | The results section is drawn for a result whose success flag is set and which carries data. ResultsIffSuccessfulResponse relates it to the analysis outcome. |
| Page.ShowsRadar | frontend/app/page.tsx:101 | The radar chart is drawn inside the results section when radar data is present. RadarPoints states what it draws. |
| Page.ResultsIffSuccessfulResponse | frontend/app/page.tsx:87 | The results section shows iff the request resolved with success and data. The error banner shows iff it rejected. |
| Page.UnsuccessfulResponseShowsNothing | frontend/app/page.tsx:63-87 | A resolved response with `success` false draws neither results nor an error. |
| Page.CompleteSuccessShowsAll | frontend/app/page.tsx:87-114 | A complete backend success draws results and radar and no error. |
| Page.MetricPanels | frontend/app/page.tsx:110-114 | Panels are drawn iff the results section is, from the result's indicator list. |
| Page.RadarPoints | frontend/app/page.tsx:101-107 | Radar points are drawn iff radar data is present inside the results section. They are the chart points built from the response's own radar data, one per category. |
| Page.UnknownCompanyShowsDetail | frontend/app/page.tsx:24-25 | The backend's company-not-found detail is what the error banner shows. |
| Page.NoReplyShowsNetworkError | frontend/app/page.tsx:24-25 | A request without a reply shows the network error and no results. |
| Page.BackendRadarPointsComplete | frontend/components/RadarChart.tsx:13-16 | For radar data computed by the backend, every point carries its category's score. |
| Page.AsWrittenBodyRejected | frontend/app/page.tsx:22 | As written, the analysis body lacks `company_name`. Validation rejects it with a 422, and the page shows an error and never a result. |
| Page.AnalyzeBodyArrives | frontend/app/page.tsx:22 | The corrected body, keyed `company_name`/`year`/`reprt_code`, validates to exactly the intended request. |
| Page.SubmitReachesBackend | frontend/app/page.tsx:16-22 | A submitted form reaches the backend, via the corrected body, as the request the form issued. |

## Left out

- Network and file I/O are parameters or left out. This covers the disclosure-service HTTP calls, the zip download and extraction, XML parsing, and the axios transport and its timeout. The request client's mapping of a reply to a resolved value or an error message is modelled (Page.ClientAnalyze). `backend/config.py` is not part of this model.
- When the company list is missing and cannot be downloaded, `get_corp_code` returns nothing before scanning. That path is I/O and is not modelled; the list is always given.
- The `status != "000"` test and the pandas frame of a single indicator request are inside the request parameter. The model sees only the rows returned.
- Floating point is not modelled: values are exact reals. `pd.to_numeric(..., errors="coerce")` can produce NaN, and pandas' `mean` skips NaN; neither is modelled. The tooltip's `toFixed(2)` is left out too.
- The catch-all 500 responses of both handlers (unexpected exceptions) are left out, and so is the search's failed company-list download.
- DartService.CalculateRadarData: requires at least one row, and so does DartService.RadarDataSpec. The backend calls it only after the empty case has become a 404, and on an empty frame the source raises.
- MainApi.MatchesQuery: lower-casing is ASCII only. Python's `str.lower` covers all of Unicode; the Korean company names have no case.
- MainApi.SearchCompanies: the query-string default `limit = 10` of the search endpoint is not modelled; the limit is always an explicit parameter. The frontend always sends 10.
- MainApi.ParseCompanyRequest: the 422 detail is the missing field's name. FastAPI's actual detail is a list of error objects, which the client would turn into an opaque message.
- SearchForm.OnNameChange: `handleSearch` reads the name from the render in which it was created, i.e. the previous value. The model guards and searches on the new value. Overlapping searches resolving out of order are also not modelled.
- Page.HandleAnalyze: overlapping analyses, and a re-render between the start and the finish, are not modelled. Each analysis is one start-then-finish step.
- FinancialMetrics.GetInterpretation: a category that names an inherited object property is not modelled. The component calls the function only with its four fixed categories.
- Rendering, icons, the bar colours per category and the layout are left out. A panel is modelled as the data it draws.
- `checkHealth` (an HTTP `GET /health` that reports whether the status is "healthy", and false on any error) is left out with the other network I/O. The backend's root and health endpoints return constants and are left out.

## Findings

| source | as written | input that shows it | evidently intended | confidence | as-written member | corrected member |
|---|---|---|---|---|---|---|
| frontend/app/page.tsx:22 | The page posts `{ companyName, year, reprtCode }`, keyed by its own variable names. | Any submitted form, e.g. company "삼성전자", year "2023", report "11014". The body has no `company_name` key, and the backend's request model (backend/models.py:4-7) requires it, so the reply is a 422. | Post `{ company_name: companyName, year, reprt_code: reprtCode }`, the shape the frontend's own `CompanyRequest` type declares (frontend/types/index.ts:27-31). | high; not executed | Page.AsWrittenBodyRejected | Page.AnalyzeBodyArrives |

=== FILE: criteria.dfy ===
/** Threshold tables that turn an indicator value into a qualitative tier.
    Both the backend (`get_interpretation`) and the bar-chart panel
    (`getInterpretation`) scan a four-entry table in the order excellent,
    good, average, poor and take the first entry whose threshold the value
    reaches; when none is reached, the poor entry is the answer. */
module Criteria {
  import Seqs

  datatype Tier = Excellent | Good | Average | Poor

  /** Tier order: excellent > good > average > poor. */
  function Rank(t: Tier): nat {
    match t
    case Excellent => 3
    case Good => 2
    case Average => 1
    case Poor => 0
  }

  /** What a classification reports: a label text and a display colour. */
  datatype Interpretation = Interpretation(text: string, color: string)

  /** One entry of a table: the inclusive lower threshold and its outcome. */
  datatype Rule = Rule(threshold: real, text: string, color: string) {
    function Outcome(): Interpretation {
      Interpretation(text, color)
    }
  }

  /** A category's table, in scan order. */
  datatype Table = Table(excellent: Rule, good: Rule, average: Rule, poor: Rule) {

    /** The entries in the order they are scanned. */
    function Entries(): seq<Rule> {
      [excellent, good, average, poor]
    }

    function RuleOf(t: Tier): Rule {
      match t
      case Excellent => excellent
      case Good => good
      case Average => average
      case Poor => poor
    }

    /** The four outcomes this table can report. */
    function Outcomes(): set<Interpretation> {
      {excellent.Outcome(), good.Outcome(), average.Outcome(), poor.Outcome()}
    }
  }

  /** The tier a value falls in: the first entry, scanned top-down, whose
      threshold the value meets or exceeds; poor when it meets none. */
  function Classify(table: Table, value: real): (t: Tier)
    ensures t == Excellent <==> value >= table.excellent.threshold
    ensures t == Good <==> value < table.excellent.threshold && value >= table.good.threshold
    ensures t == Average <==>
      value < table.excellent.threshold && value < table.good.threshold
      && value >= table.average.threshold
    ensures t == Poor <==>
      value < table.excellent.threshold && value < table.good.threshold
      && value < table.average.threshold
  {
    var entries := table.Entries();
    var meets := (r: Rule) => value >= r.threshold;
    var i := Seqs.FirstWhere(entries, meets);
    assert i > 0 ==> !meets(entries[0]);
    assert i > 1 ==> !meets(entries[1]);
    assert i > 2 ==> !meets(entries[2]);
    if i == 0 then Excellent
    else if i == 1 then Good
    else if i == 2 then Average
    else Poor
  }

  /** The label and colour reported for a value; always one of the table's
      four outcomes. */
  function Interpret(table: Table, value: real): (r: Interpretation)
    ensures r in table.Outcomes()
    ensures value >= table.excellent.threshold ==> r == table.excellent.Outcome()
    ensures (value < table.excellent.threshold && value < table.good.threshold
             && value < table.average.threshold) ==> r == table.poor.Outcome()
  {
    table.RuleOf(Classify(table, value)).Outcome()
  }

  /** Classification is monotone: a larger value never lands in a lower tier,
      whatever the thresholds. */
  lemma ClassifyMonotone(table: Table, v1: real, v2: real)
    requires v1 <= v2
    ensures Rank(Classify(table, v1)) <= Rank(Classify(table, v2))
  {
  }

  /** Thresholds are inclusive: a value equal to a threshold, and above every
      earlier threshold, gets that entry's tier. */
  lemma ThresholdInclusive(table: Table, t: Tier)
    requires forall u :: Rank(u) > Rank(t) ==> table.RuleOf(u).threshold > table.RuleOf(t).threshold
    ensures Classify(table, table.RuleOf(t).threshold) == t
  {
    assert Rank(Excellent) > Rank(Good) > Rank(Average);
  }
}

=== FILE: dart_service.dfy ===
/** The decision logic of the backend's disclosure-service wrapper
    (backend/dart_service.py): company-code lookup over the parsed company
    list, the four indicator-class requests, tier interpretation, and the
    radar scores with their letter grade. Downloading, unzipping and XML
    parsing are replaced by an in-memory company list; the per-class
    indicator request is a function parameter. */
module DartService {
  import opened Wrappers
  import opened Text
  import opened Seqs
  import opened Models
  import opened Criteria

  const Profitability: string := "수익성"
  const Stability: string := "안정성"
  const Growth: string := "성장성"
  const Activity: string := "활동성"

  // ---------------------------------------------------------------------
  // Company-code lookup

  /** Entries whose name equals the query exactly. */
  function IsExact(companyName: string): Company -> bool {
    (c: Company) => c.name == companyName
  }

  /** Entries whose name contains the query (Python `company_name in name`). */
  function IsPartial(companyName: string): Company -> bool {
    (c: Company) => Contains(c.name, companyName)
  }

  /** The code `get_corp_code` returns, stated over the whole list: the scan
      stops at the first exact match; an exact match with a non-empty code
      wins; otherwise (no exact match, or its code is the empty string,
      which Python treats as false) the first partial match seen before the
      scan stopped wins; otherwise there is no code. */
  function CorpCodeOf(corps: seq<Company>, companyName: string): Option<string> {
    var e := FirstWhere(corps, IsExact(companyName));
    var partial := Filter(corps[..e], IsPartial(companyName));
    if e < |corps| && corps[e].code != "" then Some(corps[e].code)
    else if partial != [] then Some(partial[0].code)
    else None
  }

  /** The `for ... in root.iter("list")` loop of `get_corp_code`: scans the
      list until the first exact match, collecting the partial matches seen
      on the way. Returns where the scan stopped, the exact match's code if
      there was one, and the partial matches in list order. */
  method ScanCorpList(corps: seq<Company>, companyName: string)
    returns (i: nat, exactMatch: Option<string>, partialMatches: seq<Company>)
    ensures i <= |corps|
    ensures forall j :: 0 <= j < i ==> !IsExact(companyName)(corps[j])
    ensures exactMatch.Some? <==> i < |corps|
    ensures i < |corps| ==> corps[i].name == companyName && exactMatch == Some(corps[i].code)
    ensures partialMatches == Filter(corps[..i], IsPartial(companyName))
  {
    exactMatch := None;
    partialMatches := [];
    i := 0;
    while i < |corps|
      invariant 0 <= i <= |corps|
      invariant forall j :: 0 <= j < i ==> !IsExact(companyName)(corps[j])
      invariant partialMatches == Filter(corps[..i], IsPartial(companyName))
      invariant exactMatch == None
    {
      if corps[i].name == companyName {
        exactMatch := Some(corps[i].code);
        break;
      }
      FilterExtend(corps, i, IsPartial(companyName));
      if Contains(corps[i].name, companyName) {
        partialMatches := partialMatches + [corps[i]];
      }
      i := i + 1;
    }
  }

  /** `get_corp_code` over the parsed company list: the exact match's code
      when it is truthy (non-empty), else the first partial match's code,
      else None. */
  method GetCorpCode(corps: seq<Company>, companyName: string) returns (r: Option<string>)
    ensures r == CorpCodeOf(corps, companyName)
  {
    var i, exactMatch, partialMatches := ScanCorpList(corps, companyName);
    CorpCodeOfScan(corps, companyName, i, partialMatches);
    if exactMatch.Some? && exactMatch.value != "" {
      r := exactMatch;
    } else if partialMatches != [] {
      r := Some(partialMatches[0].code);
    } else {
      r := None;
    }
  }

  /** What the scan has gathered when it stops at position `i` (an exact
      match, or the end of the list) determines the code. */
  lemma CorpCodeOfScan(corps: seq<Company>, companyName: string, i: nat, partial: seq<Company>)
    requires i <= |corps|
    requires forall j :: 0 <= j < i ==> !IsExact(companyName)(corps[j])
    requires i < |corps| ==> corps[i].name == companyName
    requires partial == Filter(corps[..i], IsPartial(companyName))
    ensures CorpCodeOf(corps, companyName) ==
      if i < |corps| && corps[i].code != "" then Some(corps[i].code)
      else if partial != [] then Some(partial[0].code)
      else None
  {
    FirstWhereIs(corps, IsExact(companyName), i);
  }

  /** The first exact match, when its code is non-empty, is returned even
      when earlier entries matched as substrings. */
  lemma ExactMatchWins(corps: seq<Company>, companyName: string, k: nat)
    requires k < |corps| && corps[k].name == companyName
    requires forall j :: 0 <= j < k ==> corps[j].name != companyName
    requires corps[k].code != ""
    ensures CorpCodeOf(corps, companyName) == Some(corps[k].code)
  {
    var e := FirstWhere(corps, IsExact(companyName));
    assert IsExact(companyName)(corps[k]);
    assert e == k;
  }

  /** Without an exact match, the first entry whose name contains the query
      supplies the code. */
  lemma FirstPartialMatchWins(corps: seq<Company>, companyName: string, k: nat)
    requires forall j :: 0 <= j < |corps| ==> corps[j].name != companyName
    requires k < |corps| && Contains(corps[k].name, companyName)
    requires forall j :: 0 <= j < k ==> !Contains(corps[j].name, companyName)
    ensures CorpCodeOf(corps, companyName) == Some(corps[k].code)
  {
    var e := FirstWhere(corps, IsExact(companyName));
    assert e == |corps|;
    assert corps[..e] == corps;
    FilterKeeps(corps, IsPartial(companyName), k);
    FilterHead(corps, IsPartial(companyName));
    var f := FirstWhere(corps, IsPartial(companyName));
    assert f == k;
  }

  /** When no entry's name contains the query there is no code. */
  lemma NoMatchNoCode(corps: seq<Company>, companyName: string)
    requires forall j :: 0 <= j < |corps| ==> !Contains(corps[j].name, companyName)
    ensures CorpCodeOf(corps, companyName) == None
  {
    ContainsSelf(companyName);
    FirstWhereIs(corps, IsExact(companyName), |corps|);
    assert corps[..|corps|] == corps;
    FilterNone(corps, IsPartial(companyName));
  }

  /** As written, an exact match whose code is empty ends the scan: only
      partial matches before it count, so later partial matches are never
      considered. */
  lemma EmptyExactCodeStopsScan(corps: seq<Company>, companyName: string, k: nat)
    requires k < |corps| && corps[k].name == companyName && corps[k].code == ""
    requires forall j :: 0 <= j < k ==> !Contains(corps[j].name, companyName)
    ensures CorpCodeOf(corps, companyName) == None
  {
    ContainsSelf(companyName);
    FirstWhereIs(corps, IsExact(companyName), k);
    FilterNone(corps[..k], IsPartial(companyName));
  }

  // ---------------------------------------------------------------------
  // Indicator requests

  /** One row of the pandas frame `fetch_all_indexes` builds: class label,
      indicator name, value. It has the fields of `FinancialIndex`, but it is
      a different record in the source: `analyze_company` copies each row
      into a `FinancialIndex` (backend/main.py:49-55), and MainApi.ConvertRows
      models that copy. */
  datatype IndexRow = IndexRow(idxClNm: string, idxNm: string, idxVal: real)

  /** The indicator-class codes, in the order `fetch_all_indexes` requests
      them (profitability, stability, growth, activity). */
  const IndexClassCodes: seq<string> := ["M210000", "M220000", "M230000", "M240000"]

  /** The loop of `fetch_all_indexes` over the first `|codes|` class codes:
      each class request's rows appended, in class-code order.
      `indexData(corpCode, year, reprtCode, classCode)` stands for
      `get_index_data`, which yields no rows on a non-"000" status; appending
      an empty answer changes nothing, as skipping it does. */
  function FetchClasses(
    indexData: (string, string, string, string) -> seq<IndexRow>,
    corpCode: string, year: string, reprtCode: string, codes: seq<string>): seq<IndexRow>
    decreases |codes|
  {
    if codes == [] then []
    else
      FetchClasses(indexData, corpCode, year, reprtCode, codes[..|codes| - 1])
      + indexData(corpCode, year, reprtCode, codes[|codes| - 1])
  }

  /** `fetch_all_indexes`: the rows of the four class requests. */
  function FetchAllIndexes(
    indexData: (string, string, string, string) -> seq<IndexRow>,
    corpCode: string, year: string, reprtCode: string): (rows: seq<IndexRow>)
    ensures |rows| ==
      |indexData(corpCode, year, reprtCode, "M210000")|
      + |indexData(corpCode, year, reprtCode, "M220000")|
      + |indexData(corpCode, year, reprtCode, "M230000")|
      + |indexData(corpCode, year, reprtCode, "M240000")|
  {
    FetchAllIndexesOrder(indexData, corpCode, year, reprtCode);
    FetchClasses(indexData, corpCode, year, reprtCode, IndexClassCodes)
  }

  /** The rows come class by class in the order M210000, M220000, M230000,
      M240000, each class's rows in the order its request returned them. */
  lemma FetchAllIndexesOrder(
    indexData: (string, string, string, string) -> seq<IndexRow>,
    corpCode: string, year: string, reprtCode: string)
    ensures FetchClasses(indexData, corpCode, year, reprtCode, IndexClassCodes)
         == indexData(corpCode, year, reprtCode, "M210000")
          + indexData(corpCode, year, reprtCode, "M220000")
          + indexData(corpCode, year, reprtCode, "M230000")
          + indexData(corpCode, year, reprtCode, "M240000")
  {
    var c := IndexClassCodes;
    var d0 := indexData(corpCode, year, reprtCode, "M210000");
    var d1 := indexData(corpCode, year, reprtCode, "M220000");
    var d2 := indexData(corpCode, year, reprtCode, "M230000");
    var d3 := indexData(corpCode, year, reprtCode, "M240000");
    assert c[..1][..0] == [] && c[..1][0] == "M210000";
    assert FetchClasses(indexData, corpCode, year, reprtCode, c[..1]) == d0;
    assert c[..2][..1] == c[..1] && c[..2][1] == "M220000";
    assert FetchClasses(indexData, corpCode, year, reprtCode, c[..2]) == d0 + d1;
    assert c[..3][..2] == c[..2] && c[..3][2] == "M230000";
    assert FetchClasses(indexData, corpCode, year, reprtCode, c[..3]) == d0 + d1 + d2;
    assert c[..3] == c[..|c| - 1] && c[3] == "M240000";
  }

  /** No rows at all exactly when every one of the four class requests
      came back empty. */
  lemma FetchAllIndexesEmpty(
    indexData: (string, string, string, string) -> seq<IndexRow>,
    corpCode: string, year: string, reprtCode: string)
    ensures FetchAllIndexes(indexData, corpCode, year, reprtCode) == [] <==>
      forall i :: 0 <= i < |IndexClassCodes| ==>
        indexData(corpCode, year, reprtCode, IndexClassCodes[i]) == []
  {
    var c := IndexClassCodes;
    assert c[0] == "M210000" && c[1] == "M220000" && c[2] == "M230000" && c[3] == "M240000";
  }

  // ---------------------------------------------------------------------
  // Interpretation

  const ProfitabilityTable: Table := Table(
    Rule(15.0, "💰 매우 우수", "#1f77b4"),
    Rule(10.0, "👍 양호", "#2ca02c"),
    Rule(5.0, "⚖️ 보통", "#ff7f0e"),
    Rule(0.0, "⚠️ 개선필요", "#d62728"))

  const StabilityTable: Table := Table(
    Rule(200.0, "🛡️ 매우 안정", "#1f77b4"),
    Rule(150.0, "✅ 안정", "#2ca02c"),
    Rule(100.0, "⚖️ 보통", "#ff7f0e"),
    Rule(0.0, "⚠️ 불안정", "#d62728"))

  const GrowthTable: Table := Table(
    Rule(20.0, "🚀 고성장", "#1f77b4"),
    Rule(10.0, "📈 성장", "#2ca02c"),
    Rule(0.0, "⚖️ 보통", "#ff7f0e"),
    Rule(-10.0, "📉 감소", "#d62728"))

  const ActivityTable: Table := Table(
    Rule(5.0, "⚡ 매우 활발", "#1f77b4"),
    Rule(3.0, "🔄 활발", "#2ca02c"),
    Rule(1.0, "⚖️ 보통", "#ff7f0e"),
    Rule(0.0, "🐌 저조", "#d62728"))

  /** The table for a category label; any other label gets the
      profitability table. */
  function TableFor(category: string): Table {
    if category == Profitability then ProfitabilityTable
    else if category == Stability then StabilityTable
    else if category == Growth then GrowthTable
    else if category == Activity then ActivityTable
    else ProfitabilityTable
  }

  /** `get_interpretation`: the (label, colour) pair for an indicator value.
      The metric name takes no part in the decision. */
  function GetInterpretation(category: string, metricName: string, value: real): (r: Interpretation)
    ensures r in TableFor(category).Outcomes()
    ensures category !in {Profitability, Stability, Growth, Activity} ==>
      r in ProfitabilityTable.Outcomes()
  {
    Interpret(TableFor(category), value)
  }

  /** The profitability tiers as value ranges; the thresholds are inclusive. */
  lemma ProfitabilityTiers(metricName: string, value: real)
    ensures GetInterpretation(Profitability, metricName, value).text == "💰 매우 우수" <==> value >= 15.0
    ensures GetInterpretation(Profitability, metricName, value).text == "👍 양호" <==> 10.0 <= value < 15.0
    ensures GetInterpretation(Profitability, metricName, value).text == "⚖️ 보통" <==> 5.0 <= value < 10.0
    ensures GetInterpretation(Profitability, metricName, value).text == "⚠️ 개선필요" <==> value < 5.0
  {
  }

  /** The stability tiers as value ranges. */
  lemma StabilityTiers(metricName: string, value: real)
    ensures GetInterpretation(Stability, metricName, value).text == "🛡️ 매우 안정" <==> value >= 200.0
    ensures GetInterpretation(Stability, metricName, value).text == "✅ 안정" <==> 150.0 <= value < 200.0
    ensures GetInterpretation(Stability, metricName, value).text == "⚖️ 보통" <==> 100.0 <= value < 150.0
    ensures GetInterpretation(Stability, metricName, value).text == "⚠️ 불안정" <==> value < 100.0
  {
  }

  /** The growth tiers as value ranges; every value below 0 is a decline,
      including values below the -10 threshold of the last entry. */
  lemma GrowthTiers(metricName: string, value: real)
    ensures GetInterpretation(Growth, metricName, value).text == "🚀 고성장" <==> value >= 20.0
    ensures GetInterpretation(Growth, metricName, value).text == "📈 성장" <==> 10.0 <= value < 20.0
    ensures GetInterpretation(Growth, metricName, value).text == "⚖️ 보통" <==> 0.0 <= value < 10.0
    ensures GetInterpretation(Growth, metricName, value).text == "📉 감소" <==> value < 0.0
  {
  }

  /** The activity tiers as value ranges. */
  lemma ActivityTiers(metricName: string, value: real)
    ensures GetInterpretation(Activity, metricName, value).text == "⚡ 매우 활발" <==> value >= 5.0
    ensures GetInterpretation(Activity, metricName, value).text == "🔄 활발" <==> 3.0 <= value < 5.0
    ensures GetInterpretation(Activity, metricName, value).text == "⚖️ 보통" <==> 1.0 <= value < 3.0
    ensures GetInterpretation(Activity, metricName, value).text == "🐌 저조" <==> value < 1.0
  {
  }

  /** An unknown category is interpreted exactly like profitability. */
  lemma UnknownCategoryIsProfitability(category: string, metricName: string, value: real)
    requires category !in {Profitability, Stability, Growth, Activity}
    ensures GetInterpretation(category, metricName, value) == GetInterpretation(Profitability, metricName, value)
  {
  }

  /** Within a category a larger value never gets a lower tier. */
  lemma InterpretationMonotone(category: string, v1: real, v2: real)
    requires v1 <= v2
    ensures Rank(Classify(TableFor(category), v1)) <= Rank(Classify(TableFor(category), v2))
  {
    ClassifyMonotone(TableFor(category), v1, v2);
  }

  // ---------------------------------------------------------------------
  // Radar scores and grade

  /** `min(100, max(0, x))`. */
  function Clamp(x: real): (r: real)
    ensures 0.0 <= r <= 100.0
    ensures 0.0 <= x <= 100.0 ==> r == x
    ensures x < 0.0 ==> r == 0.0
    ensures x > 100.0 ==> r == 100.0
  {
    var lower := if x > 0.0 then x else 0.0;
    if lower < 100.0 then lower else 100.0
  }

  /** The per-category affine map applied to a category's average before
      clamping; every label other than the first three takes the activity
      branch. */
  function Scale(category: string, avg: real): real {
    if category == Profitability then avg * 5.0
    else if category == Stability then avg / 2.0
    else if category == Growth then (avg + 20.0) * 2.5
    else avg * 20.0
  }

  /** A category's normalised score: its scaled average clamped to [0, 100]. */
  function Normalize(category: string, avg: real): (r: real)
    ensures 0.0 <= r <= 100.0
  {
    Clamp(Scale(category, avg))
  }

  /** The score reaches 100 exactly when the average reaches the category's
      full-marks point (profitability 20, stability 200, growth 20,
      otherwise 5), and is 0 exactly at or below its zero point
      (0, 0, -20, 0). */
  lemma NormalizeEndpoints(category: string, avg: real)
    ensures var full := if category == Profitability then 20.0
                        else if category == Stability then 200.0
                        else if category == Growth then 20.0
                        else 5.0;
            Normalize(category, avg) == 100.0 <==> avg >= full
    ensures var zero := if category == Growth then -20.0 else 0.0;
            Normalize(category, avg) == 0.0 <==> avg <= zero
  {
  }

  /** A larger category average never gives a smaller score. */
  lemma NormalizeMonotone(category: string, a1: real, a2: real)
    requires a1 <= a2
    ensures Normalize(category, a1) <= Normalize(category, a2)
  {
  }

  const GradeAPlus: string := "A+ (매우우수)"
  const GradeA: string := "A (우수)"
  const GradeB: string := "B (양호)"
  const GradeC: string := "C (보통)"
  const GradeD: string := "D (개선필요)"

  /** The letter grade of an overall score. */
  function Grade(score: real): (g: string)
    ensures g in {GradeAPlus, GradeA, GradeB, GradeC, GradeD}
  {
    if score >= 80.0 then GradeAPlus
    else if score >= 70.0 then GradeA
    else if score >= 60.0 then GradeB
    else if score >= 50.0 then GradeC
    else GradeD
  }

  /** Grade order: A+ > A > B > C > D. */
  function GradeRank(g: string): nat {
    if g == GradeAPlus then 4
    else if g == GradeA then 3
    else if g == GradeB then 2
    else if g == GradeC then 1
    else 0
  }

  /** The grade is a step function of the score with cut-offs 80, 70, 60
      and 50, each inclusive. */
  lemma GradeSteps(score: real)
    ensures GradeRank(Grade(score)) == 4 <==> score >= 80.0
    ensures GradeRank(Grade(score)) == 3 <==> 70.0 <= score < 80.0
    ensures GradeRank(Grade(score)) == 2 <==> 60.0 <= score < 70.0
    ensures GradeRank(Grade(score)) == 1 <==> 50.0 <= score < 60.0
    ensures GradeRank(Grade(score)) == 0 <==> score < 50.0
  {
  }

  /** A higher score never gives a worse grade. */
  lemma GradeMonotone(s1: real, s2: real)
    requires s1 <= s2
    ensures GradeRank(Grade(s1)) <= GradeRank(Grade(s2))
  {
  }

  /** The class label of every row, in row order. */
  function ClassNames(rows: seq<IndexRow>): (names: seq<string>)
    ensures |names| == |rows|
    ensures forall i :: 0 <= i < |rows| ==> names[i] == rows[i].idxClNm
  {
    seq(|rows|, i requires 0 <= i < |rows| => rows[i].idxClNm)
  }

  /** Rows of one class (`df[df["idx_cl_nm"] == category]`). */
  function InClass(category: string): IndexRow -> bool {
    (row: IndexRow) => row.idxClNm == category
  }

  /** The values of one class's rows, in row order; non-empty for a class
      that occurs. */
  function GroupValues(rows: seq<IndexRow>, category: string): (vs: seq<real>)
    ensures category in ClassNames(rows) ==> |vs| > 0
  {
    var group := Filter(rows, InClass(category));
    assert category in ClassNames(rows) ==> group != [] by {
      if category in ClassNames(rows) {
        var i :| 0 <= i < |rows| && ClassNames(rows)[i] == category;
        FilterKeeps(rows, InClass(category), i);
      }
    }
    seq(|group|, i requires 0 <= i < |group| => group[i].idxVal)
  }

  /** Grouping distributes over concatenating the rows. */
  lemma GroupValuesConcat(a: seq<IndexRow>, b: seq<IndexRow>, category: string)
    ensures GroupValues(a + b, category) == GroupValues(a, category) + GroupValues(b, category)
  {
    FilterConcat(a, b, InClass(category));
  }

  /** A single row contributes its value to its own class and nothing to any
      other. With GroupValuesConcat this pins a group to the values of
      exactly the rows carrying the label, each once, in row order. */
  lemma GroupValuesSingle(r: IndexRow, category: string)
    ensures GroupValues([r], category) == if r.idxClNm == category then [r.idxVal] else []
  {
  }

  /** A class's normalised score: the clamped scaled mean of its values. */
  function CategoryScore(rows: seq<IndexRow>, category: string): (score: real)
    requires category in ClassNames(rows)
    ensures 0.0 <= score <= 100.0
  {
    Normalize(category, Mean(GroupValues(rows, category)))
  }

  /** The scores of the listed classes, position by position. */
  function CategoryScores(rows: seq<IndexRow>, categories: seq<string>): (vs: seq<real>)
    requires forall i :: 0 <= i < |categories| ==> categories[i] in ClassNames(rows)
    ensures |vs| == |categories|
    ensures forall i :: 0 <= i < |categories| ==> vs[i] == CategoryScore(rows, categories[i])
  {
    seq(|categories|, i requires 0 <= i < |categories| => CategoryScore(rows, categories[i]))
  }

  /** `calculate_radar_data` on a non-empty table: group the values by
      class in first-appearance order, score each group, average the
      scores and grade the average. RadarDataSpec states what it yields. */
  function CalculateRadarData(rows: seq<IndexRow>): (d: RadarChartData)
    requires |rows| > 0
  {
    var categories := Unique(ClassNames(rows));
    var values := CategoryScores(rows, categories);
    var overall := Mean(values);
    RadarChartData(categories, values, overall, Grade(overall))
  }

  /** The radar data has one score per distinct class, in first-appearance
      order, each the normalised mean of that class's values; the overall
      score is their mean, hence in [0, 100]; the grade is that of the
      overall score. */
  lemma RadarDataSpec(rows: seq<IndexRow>)
    requires |rows| > 0
    ensures var d := CalculateRadarData(rows);
      && IsFirstAppearanceOrder(ClassNames(rows), d.categories)
      && |d.categories| >= 1 && |d.values| == |d.categories|
      && (forall i :: 0 <= i < |d.values| ==>
            d.values[i] == Normalize(d.categories[i], Mean(GroupValues(rows, d.categories[i]))))
      && d.overallScore == Mean(d.values)
      && 0.0 <= d.overallScore <= 100.0
      && d.grade == Grade(d.overallScore)
  {
    var names := ClassNames(rows);
    var categories := Unique(names);
    assert names[0] in categories;
    var values := CategoryScores(rows, categories);
    MeanWithin(values, 0.0, 100.0);
  }

  /** Every radar value is a normalised score, so it lies in [0, 100]. */
  lemma RadarValuesWithin(rows: seq<IndexRow>)
    requires |rows| > 0
    ensures AllWithin(CalculateRadarData(rows).values, 0.0, 100.0)
  {
    RadarDataSpec(rows);
  }
}

=== FILE: financial_metrics.dfy ===
/** The bar-chart panel (frontend/components/FinancialMetrics.tsx): one
    panel per fixed category, listing that category's indicators with their
    chart entries and tier interpretations. Rendering itself is not
    modelled; a panel is the data it would draw. */
module FinancialMetrics {
  import opened Wrappers
  import opened Text
  import opened Seqs
  import opened Models
  import opened Criteria
  import DartService

  /** The panel categories, in display order. */
  const Categories: seq<string> := ["수익성", "안정성", "성장성", "활동성"]

  const ProfitabilityTable: Table := Table(
    Rule(15.0, "💰 매우 우수", "#22c55e"),
    Rule(10.0, "👍 양호", "#3b82f6"),
    Rule(5.0, "⚖️ 보통", "#f59e0b"),
    Rule(0.0, "⚠️ 개선필요", "#ef4444"))

  const StabilityTable: Table := Table(
    Rule(200.0, "🛡️ 매우 안정", "#22c55e"),
    Rule(150.0, "✅ 안정", "#3b82f6"),
    Rule(100.0, "⚖️ 보통", "#f59e0b"),
    Rule(0.0, "⚠️ 불안정", "#ef4444"))

  const GrowthTable: Table := Table(
    Rule(20.0, "🚀 고성장", "#22c55e"),
    Rule(10.0, "📈 성장", "#3b82f6"),
    Rule(0.0, "⚖️ 보통", "#f59e0b"),
    Rule(-10.0, "📉 감소", "#ef4444"))

  const ActivityTable: Table := Table(
    Rule(5.0, "⚡ 매우 활발", "#22c55e"),
    Rule(3.0, "🔄 활발", "#3b82f6"),
    Rule(1.0, "⚖️ 보통", "#f59e0b"),
    Rule(0.0, "🐌 저조", "#ef4444"))

  /** The table for a category label; any other label gets the
      profitability table. */
  function TableFor(category: string): Table {
    if category == Categories[0] then ProfitabilityTable
    else if category == Categories[1] then StabilityTable
    else if category == Categories[2] then GrowthTable
    else if category == Categories[3] then ActivityTable
    else ProfitabilityTable
  }

  /** `getInterpretation`: the label and colour of an indicator value. */
  function GetInterpretation(category: string, value: real): (r: Interpretation)
    ensures r in TableFor(category).Outcomes()
    ensures category !in Categories ==> r in ProfitabilityTable.Outcomes()
  {
    Interpret(TableFor(category), value)
  }

  /** An unknown category is interpreted exactly like profitability. */
  lemma UnknownCategoryIsProfitability(category: string, value: real)
    requires category !in Categories
    ensures GetInterpretation(category, value) == GetInterpretation(Categories[0], value)
  {
  }

  /** Within a category a larger value never gets a lower tier. */
  lemma InterpretationMonotone(category: string, v1: real, v2: real)
    requires v1 <= v2
    ensures Rank(Classify(TableFor(category), v1)) <= Rank(Classify(TableFor(category), v2))
  {
    ClassifyMonotone(TableFor(category), v1, v2);
  }

  /** The panel and the backend agree on the tier and on its label for every
      category and value; only the colours differ. */
  lemma LabelsMatchBackend(category: string, metricName: string, value: real)
    ensures Classify(TableFor(category), value) == Classify(DartService.TableFor(category), value)
    ensures GetInterpretation(category, value).text
         == DartService.GetInterpretation(category, metricName, value).text
  {
  }

  /** The colours of the panel's tiers: green, blue, amber, red. */
  lemma TierColors(category: string, value: real)
    ensures var c := GetInterpretation(category, value).color;
      match Classify(TableFor(category), value)
      case Excellent => c == "#22c55e"
      case Good => c == "#3b82f6"
      case Average => c == "#f59e0b"
      case Poor => c == "#ef4444"
  {
  }

  /** The bar label of an indicator: `idx_nm.replace('(', '\n(')`, which
      breaks the line before the first parenthesis only. */
  function DisplayName(idxNm: string): (r: string)
    ensures '(' !in idxNm ==> r == idxNm
    ensures '(' in idxNm ==> |r| == |idxNm| + 1
  {
    ContainsChar(idxNm, '(');
    ReplaceFirst(idxNm, "(", "\n(")
  }

  /** Where the first parenthesis was, the display name has a newline;
      removing it gives back the original name, and no parenthesis comes
      before it. */
  lemma DisplayNameBreaksBeforeFirstParen(idxNm: string)
    requires '(' in idxNm
    ensures var i := FirstIndex(idxNm, '(');
      var r := DisplayName(idxNm);
      && i < |r| && r[i] == '\n'
      && r[..i] + r[i + 1..] == idxNm
      && '(' !in r[..i]
  {
    var i := FirstIndex(idxNm, '(');
    IndexOfChar(idxNm, '(', i);
    var r := DisplayName(idxNm);
    assert r == idxNm[..i] + "\n(" + idxNm[i + 1..];
    assert r[..i] == idxNm[..i];
    assert r[i + 1..] == idxNm[i..];
    assert idxNm == idxNm[..i] + idxNm[i..];
  }

  /** One bar of a category's chart. */
  datatype ChartEntry = ChartEntry(name: string, value: real, interpretation: Interpretation)

  /** What a category panel shows: its indicators and its chart entries. */
  datatype CategoryPanel = CategoryPanel(category: string, items: seq<FinancialIndex>, chartData: seq<ChartEntry>)

  /** Indicators of one category (`item.idx_cl_nm === category`). */
  function InCategory(category: string): FinancialIndex -> bool {
    (item: FinancialIndex) => item.idxClNm == category
  }

  /** The chart entry of one indicator. */
  function ToChartEntry(category: string, item: FinancialIndex): ChartEntry {
    ChartEntry(DisplayName(item.idxNm), item.idxVal, GetInterpretation(category, item.idxVal))
  }

  /** The panel of one category: nothing when it has no indicators;
      otherwise its indicators in input order and one chart entry each, with
      the value copied unchanged. */
  function Panel(data: seq<FinancialIndex>, category: string): (p: Option<CategoryPanel>)
    ensures p.Some? ==> p.value.category == category && p.value.items != []
    ensures p.Some? ==> forall i :: 0 <= i < |p.value.items| ==> p.value.items[i].idxClNm == category
    ensures p.Some? ==> |p.value.chartData| == |p.value.items|
    ensures p.Some? ==> forall i :: 0 <= i < |p.value.items| ==>
      && p.value.chartData[i].value == p.value.items[i].idxVal
      && p.value.chartData[i].name == DisplayName(p.value.items[i].idxNm)
      && p.value.chartData[i].interpretation == GetInterpretation(category, p.value.items[i].idxVal)
  {
    var categoryData := Filter(data, InCategory(category));
    if |categoryData| == 0 then None
    else
      Some(CategoryPanel(category, categoryData,
        seq(|categoryData|, i requires 0 <= i < |categoryData| => ToChartEntry(category, categoryData[i]))))
  }

  /** A category renders nothing exactly when no indicator carries its label. */
  lemma EmptyCategoryRendersNothing(data: seq<FinancialIndex>, category: string)
    ensures Panel(data, category).None? <==> forall i :: 0 <= i < |data| ==> data[i].idxClNm != category
  {
    if forall i :: 0 <= i < |data| ==> data[i].idxClNm != category {
      FilterNone(data, InCategory(category));
    } else {
      var k :| 0 <= k < |data| && data[k].idxClNm == category;
      FilterKeeps(data, InCategory(category), k);
    }
  }

  /** A panel lists exactly the indicators carrying its label. */
  lemma PanelMembership(data: seq<FinancialIndex>, category: string, item: FinancialIndex)
    requires Panel(data, category).Some?
    ensures item in Panel(data, category).value.items <==> item in data && item.idxClNm == category
  {
    FilterMembership(data, InCategory(category), item);
  }

  /** A panel keeps its indicators in input order: the panel of a
      concatenation is the concatenation of the panels' indicator lists. */
  lemma PanelKeepsOrder(a: seq<FinancialIndex>, b: seq<FinancialIndex>, category: string)
    requires Panel(a, category).Some? && Panel(b, category).Some?
    ensures Panel(a + b, category).Some?
    ensures Panel(a + b, category).value.items
         == Panel(a, category).value.items + Panel(b, category).value.items
  {
    FilterConcat(a, b, InCategory(category));
  }

  /** The indicators a panel slot lists: none when the category is not drawn. */
  function ItemsOf(p: Option<CategoryPanel>): seq<FinancialIndex> {
    match p
    case None => []
    case Some(panel) => panel.items
  }

  /** Listing distributes over concatenating the input, whether or not
      either part has indicators of the category. */
  lemma PanelItemsConcat(a: seq<FinancialIndex>, b: seq<FinancialIndex>, category: string)
    ensures ItemsOf(Panel(a + b, category)) == ItemsOf(Panel(a, category)) + ItemsOf(Panel(b, category))
  {
    FilterConcat(a, b, InCategory(category));
  }

  /** A one-indicator input lists that indicator once when it carries the
      label and nothing otherwise. With PanelItemsConcat this pins a panel
      to the labelled indicators, each exactly once, in input order. */
  lemma PanelItemsSingle(x: FinancialIndex, category: string)
    ensures ItemsOf(Panel([x], category)) == if x.idxClNm == category then [x] else []
  {
  }

  /** All panels, one slot per fixed category in display order. */
  function Panels(data: seq<FinancialIndex>): (ps: seq<Option<CategoryPanel>>)
    ensures |ps| == |Categories|
    ensures forall i :: 0 <= i < |ps| && ps[i].Some? ==> ps[i].value.category == Categories[i]
  {
    seq(|Categories|, i requires 0 <= i < |Categories| => Panel(data, Categories[i]))
  }

  /** An indicator whose label is not one of the four categories appears in
      no panel. */
  lemma UnknownLabelsNotShown(data: seq<FinancialIndex>, item: FinancialIndex, i: nat)
    requires item.idxClNm !in Categories
    requires i < |Categories| && Panels(data)[i].Some?
    ensures item !in Panels(data)[i].value.items
  {
    PanelMembership(data, Categories[i], item);
  }
}

=== FILE: main_api.dfy ===
/** The two HTTP handlers of the backend (backend/main.py): company search
    and company analysis. The company list and the indicator requests are
    parameters; the download step and the catch-all 500 path for unexpected
    exceptions are not modelled. */
module MainApi {
  import opened Wrappers
  import opened Text
  import opened Seqs
  import opened Models
  import opened DartService

  // ---------------------------------------------------------------------
  // GET /api/companies/search

  /** Case-insensitive containment: `query.lower() in name.lower()`. */
  function MatchesQuery(query: string): Company -> bool {
    (c: Company) => Contains(Lower(c.name), Lower(query))
  }

  /** `search_companies`: the matching entries in list order, cut off once
      the number collected reaches the limit (`full` stands for the loop's
      `break`). */
  method SearchCompanies(corps: seq<Company>, query: string, limit: int) returns (matches: seq<Company>)
    ensures var all := Filter(corps, MatchesQuery(query));
      limit >= 1 ==> matches == all[..if limit < |all| then limit else |all|]
    ensures var all := Filter(corps, MatchesQuery(query));
      limit <= 0 ==> matches == all[..if |all| < 1 then |all| else 1]
  {
    matches := [];
    var i := 0;
    var full := false;
    while i < |corps| && !full
      invariant 0 <= i <= |corps|
      invariant matches == Filter(corps[..i], MatchesQuery(query))
      invariant !full ==> matches == [] || |matches| < limit
      invariant full ==> |matches| == (if limit >= 1 then limit else 1)
    {
      FilterExtend(corps, i, MatchesQuery(query));
      if Contains(Lower(corps[i].name), Lower(query)) {
        matches := matches + [corps[i]];
        full := |matches| >= limit;
      }
      i := i + 1;
    }
    FilterPrefix(corps, i, MatchesQuery(query));
    if !full {
      assert corps[..i] == corps;
    }
  }

  /** Lower-casing the query does not change the search outcome. */
  lemma SearchIgnoresQueryCase(corps: seq<Company>, query: string)
    ensures Filter(corps, MatchesQuery(Lower(query))) == Filter(corps, MatchesQuery(query))
  {
    LowerIdempotent(query);
    assert MatchesQuery(Lower(query)) == MatchesQuery(query);
  }

  // ---------------------------------------------------------------------
  // POST /api/analyze

  /** Request validation of the analysis body, a JSON object of string
      fields: `company_name` is required, `year` and `reprt_code` fall back
      to their defaults, and any other field is ignored. A missing required
      field is a 422 whose detail names the field. */
  function ParseCompanyRequest(body: map<string, string>): (r: Result<CompanyRequest, HttpError>)
    ensures r.Err? <==> "company_name" !in body
    ensures r.Err? ==> r.error.status == 422
    ensures r.Ok? ==> r.value.companyName == body["company_name"]
    ensures r.Ok? && "year" in body ==> r.value.year == body["year"]
    ensures r.Ok? && "year" !in body ==> r.value.year == DefaultYear
    ensures r.Ok? && "reprt_code" in body ==> r.value.reprtCode == body["reprt_code"]
    ensures r.Ok? && "reprt_code" !in body ==> r.value.reprtCode == DefaultReprtCode
  {
    if "company_name" !in body then Err(HttpError(422, "company_name"))
    else
      Ok(CompanyRequest(
        body["company_name"],
        if "year" in body then body["year"] else DefaultYear,
        if "reprt_code" in body then body["reprt_code"] else DefaultReprtCode))
  }

  /** The wire body of a request: its three fields under their snake-case
      names. */
  function RequestBody(req: CompanyRequest): map<string, string> {
    map["company_name" := req.companyName, "year" := req.year, "reprt_code" := req.reprtCode]
  }

  /** Validation inverts serialisation: a request sent with all three fields
      arrives unchanged. */
  lemma RequestBodyRoundTrip(req: CompanyRequest)
    ensures ParseCompanyRequest(RequestBody(req)) == Ok(req)
  {
  }

  /** Fields only validation reads decide the outcome: unrelated keys are ignored. */
  lemma ExtraFieldsIgnored(body: map<string, string>, key: string, value: string)
    requires key !in {"company_name", "year", "reprt_code"}
    ensures ParseCompanyRequest(body[key := value]) == ParseCompanyRequest(body)
  {
  }

  /** The 404 raised when the company has no (truthy) code. */
  function CompanyNotFound(companyName: string): HttpError {
    HttpError(404, "회사 '" + companyName + "'를 찾을 수 없습니다.")
  }

  /** The 404 raised when no indicator rows were found. */
  const NoFinancialData: HttpError := HttpError(404, "해당 연도의 재무 데이터를 찾을 수 없습니다.")

  /** The success message of an analysis. */
  function CompletionMessage(req: CompanyRequest): string {
    req.companyName + "의 " + req.year + "년 재무 분석이 완료되었습니다."
  }

  /** The `FinancialIndex` built from one indicator row. */
  function ToFinancialIndex(row: IndexRow): FinancialIndex {
    FinancialIndex(row.idxClNm, row.idxNm, row.idxVal)
  }

  /** The row-to-`FinancialIndex` loop: one index per row, in row order,
      with the class label, name and value copied. */
  method ConvertRows(rows: seq<IndexRow>) returns (indices: seq<FinancialIndex>)
    ensures |indices| == |rows|
    ensures forall i :: 0 <= i < |rows| ==>
      indices[i].idxClNm == rows[i].idxClNm
      && indices[i].idxNm == rows[i].idxNm
      && indices[i].idxVal == rows[i].idxVal
  {
    indices := [];
    var i := 0;
    while i < |rows|
      invariant 0 <= i <= |rows|
      invariant |indices| == i
      invariant forall k :: 0 <= k < i ==> indices[k] == ToFinancialIndex(rows[k])
    {
      indices := indices + [ToFinancialIndex(rows[i])];
      i := i + 1;
    }
  }

  /** A response carrying a result: success set, data and radar data present. */
  predicate IsCompleteSuccess(resp: AnalysisResponse) {
    resp.success && resp.data.Some? && resp.radarData.Some?
  }

  /** The code lookup succeeded with a truthy code. */
  predicate HasCode(corps: seq<Company>, companyName: string) {
    var code := CorpCodeOf(corps, companyName);
    code.Some? && code.value != ""
  }

  /** `analyze_company`: unknown company and empty indicator set are 404
      errors; otherwise a successful response whose data echoes the
      request's company and year, holds one index per indicator row, and
      whose radar data is computed from those rows. */
  method AnalyzeCompany(
    req: CompanyRequest,
    corps: seq<Company>,
    indexData: (string, string, string, string) -> seq<IndexRow>)
    returns (r: Result<AnalysisResponse, HttpError>)
    ensures !HasCode(corps, req.companyName) ==> r == Err(CompanyNotFound(req.companyName))
    ensures HasCode(corps, req.companyName)
      && FetchAllIndexes(indexData, CorpCodeOf(corps, req.companyName).value, req.year, req.reprtCode) == []
      ==> r == Err(NoFinancialData)
    ensures HasCode(corps, req.companyName)
      && FetchAllIndexes(indexData, CorpCodeOf(corps, req.companyName).value, req.year, req.reprtCode) != []
      ==> r.Ok?
    ensures r.Ok? ==> IsCompleteSuccess(r.value)
    ensures r.Ok? ==>
      && r.value.message == CompletionMessage(req)
      && r.value.data.value.companyName == req.companyName
      && r.value.data.value.year == req.year
    ensures r.Ok? ==> HasCode(corps, req.companyName)
    ensures r.Ok? ==> (
      var rows := FetchAllIndexes(indexData, CorpCodeOf(corps, req.companyName).value, req.year, req.reprtCode);
      && rows != []
      && |r.value.data.value.data| == |rows|
      && (forall i :: 0 <= i < |rows| ==> r.value.data.value.data[i] == ToFinancialIndex(rows[i]))
      && r.value.radarData == Some(CalculateRadarData(rows)))
  {
    var corpCode := GetCorpCode(corps, req.companyName);
    if corpCode.None? || corpCode.value == "" {
      return Err(CompanyNotFound(req.companyName));
    }
    var rows := FetchAllIndexes(indexData, corpCode.value, req.year, req.reprtCode);
    if rows == [] {
      return Err(NoFinancialData);
    }
    var financialData := ConvertRows(rows);
    var radarData := CalculateRadarData(rows);
    r := Ok(AnalysisResponse(
      true,
      CompletionMessage(req),
      Some(FinancialData(req.companyName, req.year, financialData)),
      Some(RadarChartData(radarData.categories, radarData.values, radarData.overallScore, radarData.grade))));
  }
}

=== FILE: models.dfy ===
/** The value shapes exchanged between the backend and the frontend
    (backend/models.py, frontend/types/index.ts). Field names keep the
    wire names in camel case: `idxClNm` is `idx_cl_nm`, and so on. */
module Models {
  import opened Wrappers

  /** One company, as a search result and as an entry of the disclosure
      service's company list (`corp_name`, `corp_code`). */
  datatype Company = Company(name: string, code: string)

  /** The analysis request; the backend defaults are year "2023" and report
      code "11014" (third-quarter report). */
  datatype CompanyRequest = CompanyRequest(companyName: string, year: string, reprtCode: string)

  const DefaultYear: string := "2023"
  const DefaultReprtCode: string := "11014"

  /** One indicator: its category label, its name and its value. */
  datatype FinancialIndex = FinancialIndex(idxClNm: string, idxNm: string, idxVal: real)

  datatype FinancialData = FinancialData(companyName: string, year: string, data: seq<FinancialIndex>)

  /** Category scores for the radar chart; `categories` and `values` are
      meant to be parallel lists. */
  datatype RadarChartData = RadarChartData(
    categories: seq<string>,
    values: seq<real>,
    overallScore: real,
    grade: string)

  datatype AnalysisResponse = AnalysisResponse(
    success: bool,
    message: string,
    data: Option<FinancialData>,
    radarData: Option<RadarChartData>)

  /** An HTTP error raised by the backend: status code and detail message. */
  datatype HttpError = HttpError(status: int, detail: string)
}

=== FILE: page.dfy ===
/** The dashboard page (frontend/app/page.tsx): the analysis lifecycle as a
    state-transition function over the page's three state variables, the
    company-search fallback, and what the page draws from its state. An
    awaited request is modelled by passing its outcome to the handler. */
module Page {
  import opened Wrappers
  import opened Models
  import MainApi
  import DartService
  import SearchForm
  import FinancialMetrics
  import RadarChart

  datatype PageState = PageState(
    analysisResult: Option<AnalysisResponse>,
    isLoading: bool,
    error: Option<string>)

  /** The page as first rendered: no result, not loading, no error. */
  const Initial: PageState := PageState(None, false, None)

  /** The error shown when a failed analysis carries no message. */
  const DefaultAnalyzeError: string := "분석 중 오류가 발생했습니다."

  /** The message of a request that got no HTTP response at all. */
  const NetworkError: string := "네트워크 오류가 발생했습니다."

  /** How the awaited analysis request settled: with the response body, or
      by throwing; `message` is the thrown value's `message`, absent when it
      has none. */
  datatype AnalyzeOutcome = Resolved(response: AnalysisResponse) | Rejected(message: Option<string>)

  /** The request client's mapping of a server reply to an outcome (None
      when no reply arrived): a reply body resolves; an HTTP error rejects
      with its detail, or the default message when the detail is empty; no
      reply rejects with the network message. */
  function ClientAnalyze(reply: Option<Result<AnalysisResponse, HttpError>>): (o: AnalyzeOutcome)
    ensures reply.Some? && reply.value.Ok? <==> o.Resolved?
    ensures o.Resolved? ==> o.response == reply.value.value
    ensures o.Rejected? ==> o.message.Some? && o.message.value != ""
    ensures reply.None? ==> o == Rejected(Some(NetworkError))
    ensures reply.Some? && reply.value.Err? && reply.value.error.detail != "" ==>
      o == Rejected(Some(reply.value.error.detail))
    ensures reply.Some? && reply.value.Err? && reply.value.error.detail == "" ==>
      o == Rejected(Some(DefaultAnalyzeError))
  {
    match reply
    case None => Rejected(Some(NetworkError))
    case Some(Ok(response)) => Resolved(response)
    case Some(Err(e)) => Rejected(Some(if e.detail != "" then e.detail else DefaultAnalyzeError))
  }

  /** The wire body the page sends for an analysis, keyed as the backend
      expects. */
  function AnalyzeBody(companyName: string, year: string, reprtCode: string): map<string, string> {
    MainApi.RequestBody(CompanyRequest(companyName, year, reprtCode))
  }

  /** The body as the page builds it: the object `{ companyName, year,
      reprtCode }`, keyed by the page's own variable names. */
  function AnalyzeBodyAsWritten(companyName: string, year: string, reprtCode: string): map<string, string> {
    map["companyName" := companyName, "year" := year, "reprtCode" := reprtCode]
  }

  /** As built, the body lacks `company_name`, so the backend rejects every
      analysis with a 422 and the page ends up showing an error, never a
      result. */
  lemma AsWrittenBodyRejected(s: PageState, companyName: string, year: string, reprtCode: string)
    ensures var parsed := MainApi.ParseCompanyRequest(AnalyzeBodyAsWritten(companyName, year, reprtCode));
      && parsed.Err? && parsed.error.status == 422
      && var t := HandleAnalyze(s, ClientAnalyze(Some(Err(parsed.error))));
      ShowsError(t) && !ShowsResults(t)
  {
    var body := AnalyzeBodyAsWritten(companyName, year, reprtCode);
    assert "company_name" !in body;
  }

  /** With the backend's key names, the request the backend validates is
      exactly the one the page meant to send. */
  lemma AnalyzeBodyArrives(companyName: string, year: string, reprtCode: string)
    ensures MainApi.ParseCompanyRequest(AnalyzeBody(companyName, year, reprtCode))
         == Ok(CompanyRequest(companyName, year, reprtCode))
  {
    MainApi.RequestBodyRoundTrip(CompanyRequest(companyName, year, reprtCode));
  }

  /** A submitted form reaches the backend as the request the form issued. */
  lemma SubmitReachesBackend(form: SearchForm.FormState)
    requires SearchForm.HandleSubmit(form).Some?
    ensures var req := SearchForm.HandleSubmit(form).value;
      MainApi.ParseCompanyRequest(AnalyzeBody(req.companyName, req.year, req.reprtCode)) == Ok(req)
  {
    var req := SearchForm.HandleSubmit(form).value;
    AnalyzeBodyArrives(req.companyName, req.year, req.reprtCode);
  }

  /** Start of `handleAnalyze`: loading on, error and result cleared. */
  function StartAnalyze(s: PageState): (t: PageState)
    ensures PhaseOf(t) == Loading
  {
    PageState(None, true, None)
  }

  /** The error text stored for a rejection: `err.message ||` the default. */
  function ErrorText(message: Option<string>): (e: string)
    ensures e != ""
    ensures message.Some? && message.value != "" ==> e == message.value
    ensures message.None? || message.value == "" ==> e == DefaultAnalyzeError
  {
    match message
    case Some(m) => if m != "" then m else DefaultAnalyzeError
    case None => DefaultAnalyzeError
  }

  /** End of `handleAnalyze`: the result or the error text is stored, and
      loading ends either way. */
  function FinishAnalyze(s: PageState, outcome: AnalyzeOutcome): (t: PageState)
    ensures !t.isLoading
    ensures outcome.Resolved? ==> t.analysisResult == Some(outcome.response) && t.error == s.error
    ensures outcome.Rejected? ==> t.error == Some(ErrorText(outcome.message)) && t.analysisResult == s.analysisResult
  {
    match outcome
    case Resolved(response) => s.(analysisResult := Some(response), isLoading := false)
    case Rejected(message) => s.(error := Some(ErrorText(message)), isLoading := false)
  }

  /** `handleAnalyze`: start, await, finish. The previous state is
      forgotten: after an analysis exactly one of result and error is set,
      and which one depends only on how the request settled. */
  function HandleAnalyze(s: PageState, outcome: AnalyzeOutcome): (t: PageState)
    ensures !t.isLoading
    ensures t.analysisResult.Some? <==> outcome.Resolved?
    ensures t.error.Some? <==> outcome.Rejected?
    ensures outcome.Resolved? ==> t.analysisResult.value == outcome.response
    ensures outcome.Rejected? ==> t.error.value == ErrorText(outcome.message)
  {
    FinishAnalyze(StartAnalyze(s), outcome)
  }

  /** The page's phases, read off its state. */
  datatype Phase = Idle | Loading | Succeeded | Failed

  function PhaseOf(s: PageState): Phase {
    if s.isLoading then Loading
    else if s.error.Some? then Failed
    else if s.analysisResult.Some? then Succeeded
    else Idle
  }

  /** The page's invariant: while loading nothing else is set, and error and
      result are never set together. */
  predicate Consistent(s: PageState) {
    && (s.isLoading ==> s.analysisResult.None? && s.error.None?)
    && !(s.analysisResult.Some? && s.error.Some?)
  }

  /** Every reachable state is consistent: the initial one, the one an
      analysis starts in, and the one it ends in, from any state. */
  lemma TransitionsKeepConsistent(s: PageState, outcome: AnalyzeOutcome)
    ensures Consistent(Initial) && PhaseOf(Initial) == Idle
    ensures Consistent(StartAnalyze(s))
    ensures Consistent(HandleAnalyze(s, outcome))
    ensures PhaseOf(HandleAnalyze(s, outcome)) == if outcome.Resolved? then Succeeded else Failed
  {
  }

  /** Finishing is only consistent after starting: finishing with a result
      on a state that still shows an error would show both. */
  lemma FinishNeedsStart()
    ensures !Consistent(FinishAnalyze(PageState(None, false, Some("e")),
                                      Resolved(AnalysisResponse(true, "", None, None))))
  {
  }

  /** `handleSearchCompanies`: the search's companies, or the empty list
      when the search throws. */
  function HandleSearchCompanies(outcome: Result<seq<Company>, string>): (r: seq<Company>)
    ensures outcome.Ok? ==> r == outcome.value
    ensures outcome.Err? ==> r == []
  {
    match outcome
    case Ok(companies) => companies
    case Err(_) => []
  }

  /** The page's search callback always resolves, so the form stores its
      list: a failed search, which the form only issues for a name long
      enough, stores the empty list and draws no suggestions instead of
      surfacing an error. */
  lemma FailedSearchShowsNothing(form: SearchForm.FormState, message: string)
    requires SearchForm.SearchAllowed(form.companyName)
    ensures var t := SearchForm.HandleSearch(form, SearchForm.Found(HandleSearchCompanies(Err(message))));
      && t.searchResults == [] && t.showResults
      && !SearchForm.SuggestionsVisible(t)
  {
  }

  /** The error banner is drawn for a non-empty error. */
  predicate ShowsError(s: PageState) {
    s.error.Some? && s.error.value != ""
  }

  /** The results section is drawn for a successful result carrying data. */
  predicate ShowsResults(s: PageState) {
    s.analysisResult.Some? && s.analysisResult.value.success && s.analysisResult.value.data.Some?
  }

  /** The radar chart is drawn inside the results section when radar data
      is present. */
  predicate ShowsRadar(s: PageState) {
    ShowsResults(s) && s.analysisResult.value.radarData.Some?
  }

  /** The metric panels drawn, when the results section is. */
  function MetricPanels(s: PageState): (ps: Option<seq<Option<FinancialMetrics.CategoryPanel>>>)
    ensures ps.Some? <==> ShowsResults(s)
    ensures ps.Some? ==> ps.value == FinancialMetrics.Panels(s.analysisResult.value.data.value.data)
  {
    if ShowsResults(s) then Some(FinancialMetrics.Panels(s.analysisResult.value.data.value.data)) else None
  }

  /** The radar points drawn, when the radar chart is. */
  function RadarPoints(s: PageState): (pts: Option<seq<RadarChart.ChartPoint>>)
    ensures pts.Some? <==> ShowsRadar(s)
    ensures pts.Some? ==> pts.value == RadarChart.ChartData(s.analysisResult.value.radarData.value)
  {
    if ShowsRadar(s) then Some(RadarChart.ChartData(s.analysisResult.value.radarData.value)) else None
  }

  /** After an analysis the results section is drawn exactly when the
      request resolved with a successful response carrying data; a rejected
      request draws the error banner instead. */
  lemma ResultsIffSuccessfulResponse(s: PageState, outcome: AnalyzeOutcome)
    ensures var t := HandleAnalyze(s, outcome);
      ShowsResults(t) <==> outcome.Resolved? && outcome.response.success && outcome.response.data.Some?
    ensures var t := HandleAnalyze(s, outcome);
      ShowsError(t) <==> outcome.Rejected?
  {
  }

  /** A resolved response that reports failure draws neither results nor an
      error: the page is left blank. */
  lemma UnsuccessfulResponseShowsNothing(s: PageState, response: AnalysisResponse)
    requires !response.success
    ensures var t := HandleAnalyze(s, Resolved(response));
      !ShowsResults(t) && !ShowsRadar(t) && !ShowsError(t) && !t.isLoading
  {
  }

  /** A complete backend success draws the results section and the radar
      chart, and no error. */
  lemma CompleteSuccessShowsAll(s: PageState, response: AnalysisResponse)
    requires MainApi.IsCompleteSuccess(response)
    ensures var t := HandleAnalyze(s, ClientAnalyze(Some(Ok(response))));
      ShowsResults(t) && ShowsRadar(t) && !ShowsError(t)
  {
  }

  /** A backend 404 for an unknown company is shown as its detail text. */
  lemma UnknownCompanyShowsDetail(s: PageState, companyName: string)
    ensures var e := MainApi.CompanyNotFound(companyName);
      HandleAnalyze(s, ClientAnalyze(Some(Err(e)))).error == Some(e.detail)
  {
  }

  /** A request that got no reply is shown as the network error. */
  lemma NoReplyShowsNetworkError(s: PageState)
    ensures HandleAnalyze(s, ClientAnalyze(None)).error == Some(NetworkError)
    ensures !ShowsResults(HandleAnalyze(s, ClientAnalyze(None)))
  {
  }

  /** For radar data computed by the backend, the chart pairs every
      category with its score: no point is missing its value. */
  lemma BackendRadarPointsComplete(rows: seq<DartService.IndexRow>)
    requires |rows| > 0
    ensures var d := DartService.CalculateRadarData(rows);
      forall i :: 0 <= i < |RadarChart.ChartData(d)| ==>
        RadarChart.ChartData(d)[i].value == Some(d.values[i])
  {
    var d := DartService.CalculateRadarData(rows);
    DartService.RadarDataSpec(rows);
    RadarChart.ChartDataZips(d);
  }
}

=== FILE: radar_chart.dfy ===
/** The radar panel (frontend/components/RadarChart.tsx): the chart points
    built from the category and value lists, and the grade colour. */
module RadarChart {
  import opened Wrappers
  import opened Text
  import opened Models
  import DartService

  /** One radar point. Its value is None when `values[index]` is past the
      end of the value list (JavaScript yields `undefined` there). */
  datatype ChartPoint = ChartPoint(category: string, value: Option<real>)

  /** `data.categories.map((category, index) => ({category, value: data.values[index]}))`. */
  function ChartData(d: RadarChartData): (points: seq<ChartPoint>)
    ensures |points| == |d.categories|
  {
    seq(|d.categories|, i requires 0 <= i < |d.categories| =>
      ChartPoint(d.categories[i], if i < |d.values| then Some(d.values[i]) else None))
  }

  /** For parallel lists the points pair each category with its value:
      reading the categories and values back off the points returns the two
      lists unchanged. */
  lemma ChartDataZips(d: RadarChartData)
    requires |d.values| == |d.categories|
    ensures forall i :: 0 <= i < |d.categories| ==> ChartData(d)[i].value.Some?
    ensures seq(|ChartData(d)|, i requires 0 <= i < |ChartData(d)| => ChartData(d)[i].category) == d.categories
    ensures seq(|ChartData(d)|, i requires 0 <= i < |ChartData(d)| && ChartData(d)[i].value.Some? =>
                  ChartData(d)[i].value.value) == d.values
  {
  }

  const Green: string := "#22c55e"
  const Blue: string := "#3b82f6"
  const Amber: string := "#f59e0b"
  const Red: string := "#ef4444"

  /** `getGradeColor`: green when the grade mentions A, else blue when it
      mentions B, else amber when it mentions C, else red. */
  function GetGradeColor(grade: string): (c: string)
    ensures c == Green <==> 'A' in grade
    ensures c == Blue <==> 'A' !in grade && 'B' in grade
    ensures c == Amber <==> 'A' !in grade && 'B' !in grade && 'C' in grade
    ensures c == Red <==> 'A' !in grade && 'B' !in grade && 'C' !in grade
  {
    ContainsChar(grade, 'A');
    ContainsChar(grade, 'B');
    ContainsChar(grade, 'C');
    ContainsPrefix(grade, "A+", 1);
    assert "A+"[..1] == "A";
    if Contains(grade, "A+") || Contains(grade, "A") then Green
    else if Contains(grade, "B") then Blue
    else if Contains(grade, "C") then Amber
    else Red
  }

  /** The check order decides: a grade mentioning A is green even when it
      also mentions B or C. */
  lemma AWinsOverBAndC(grade: string)
    requires 'A' in grade
    ensures GetGradeColor(grade) == Green
  {
  }

  /** Composed with the backend's grading, the colour is a step function of
      the overall score: green from 70, blue from 60, amber from 50, red below. */
  lemma ScoreColors(score: real)
    ensures GetGradeColor(DartService.Grade(score)) == Green <==> score >= 70.0
    ensures GetGradeColor(DartService.Grade(score)) == Blue <==> 60.0 <= score < 70.0
    ensures GetGradeColor(DartService.Grade(score)) == Amber <==> 50.0 <= score < 60.0
    ensures GetGradeColor(DartService.Grade(score)) == Red <==> score < 50.0
  {
    var g := DartService.Grade(score);
    assert 'A' in DartService.GradeAPlus && 'A' in DartService.GradeA;
    assert 'A' !in DartService.GradeB && 'B' in DartService.GradeB;
    assert 'A' !in DartService.GradeC && 'B' !in DartService.GradeC && 'C' in DartService.GradeC;
    assert 'A' !in DartService.GradeD && 'B' !in DartService.GradeD && 'C' !in DartService.GradeD;
  }
}

=== FILE: search_form.dfy ===
/** The search form (frontend/components/SearchForm.tsx) as a state
    machine over its five state variables. Awaiting the search callback is
    modelled by passing its outcome to the handler. */
module SearchForm {
  import opened Wrappers
  import opened Text
  import opened Models

  datatype FormState = FormState(
    companyName: string,
    year: string,
    reprtCode: string,
    searchResults: seq<Company>,
    showResults: bool)

  /** The form as first rendered. */
  const Initial: FormState := FormState("", "2023", "11014", [], false)

  /** The year choices, most recent first: `2023 - i` for i in 0..4. */
  function YearOptions(): (ys: seq<nat>)
    ensures ys == [2023, 2022, 2021, 2020, 2019]
  {
    seq(5, i requires 0 <= i < 5 => 2023 - i)
  }

  /** The option values of the year select (`y.toString()`). */
  function YearValues(): (vs: seq<string>)
    ensures |vs| == |YearOptions()|
  {
    seq(|YearOptions()|, i requires 0 <= i < |YearOptions()| => DecimalString(YearOptions()[i]))
  }

  datatype ReportOption = ReportOption(value: string, text: string)

  /** The report types: third-quarter, half-year, annual and first-quarter. */
  const ReportOptions: seq<ReportOption> := [
    ReportOption("11014", "3분기보고서"),
    ReportOption("11013", "반기보고서"),
    ReportOption("11012", "사업보고서"),
    ReportOption("11011", "1분기보고서")]

  function ReportCodes(): seq<string> {
    seq(|ReportOptions|, i requires 0 <= i < |ReportOptions| => ReportOptions[i].value)
  }

  /** The defaults are selectable options, and the year values are the
      printed years. */
  lemma OptionsContainDefaults()
    ensures YearValues() == ["2023", "2022", "2021", "2020", "2019"]
    ensures Initial.year in YearValues() && Initial.reprtCode in ReportCodes()
    ensures Initial.year == DefaultYear && Initial.reprtCode == DefaultReprtCode
  {
    YearsPrinted();
    var vs := YearValues();
    assert |vs| == 5;
    assert vs[0] == "2023" && vs[1] == "2022" && vs[2] == "2021" && vs[3] == "2020" && vs[4] == "2019";
    assert ReportCodes()[0] == Initial.reprtCode;
  }

  /** The five offered years print as their four digits, digit by digit. */
  lemma YearsPrinted()
    ensures DecimalString(2023) == "2023" && DecimalString(2022) == "2022"
    ensures DecimalString(2021) == "2021" && DecimalString(2020) == "2020"
    ensures DecimalString(2019) == "2019"
  {
    assert DecimalString(2) == "2";
    assert DecimalString(20) == "20";
    assert DecimalString(201) == "201";
    assert DecimalString(202) == "202";
  }

  /** A search is issued only for names whose trimmed JavaScript length is
      at least two; that length counts UTF-16 code units, so one character
      above U+FFFF already reaches it. */
  predicate SearchAllowed(name: string) {
    Utf16Length(Trim(name)) >= 2
  }

  /** The length guard in terms of characters: two or more characters
      remain after trimming, or exactly one from outside the Basic
      Multilingual Plane. */
  lemma SearchAllowedIff(name: string)
    ensures SearchAllowed(name) <==>
      |Trim(name)| >= 2 || (|Trim(name)| == 1 && Trim(name)[0] as int > 0xFFFF)
  {
  }

  /** A lone emoji is long enough to search; a lone BMP letter is not. */
  lemma SearchAllowedExamples()
    ensures SearchAllowed("\U{1F600}") && SearchAllowed(" \U{1F600} ")
    ensures !SearchAllowed("a") && !SearchAllowed(" a ")
  {
  }

  /** What the awaited search callback produced. */
  datatype SearchOutcome = Found(results: seq<Company>) | Failed

  /** `handleSearch`: below the length guard nothing happens; a result list
      is stored and shown; a failure is only logged. */
  function HandleSearch(s: FormState, outcome: SearchOutcome): (t: FormState)
    ensures t.companyName == s.companyName && t.year == s.year && t.reprtCode == s.reprtCode
    ensures !SearchAllowed(s.companyName) || outcome.Failed? ==> t == s
    ensures SearchAllowed(s.companyName) && outcome.Found? ==>
      t.searchResults == outcome.results && t.showResults
  {
    if !SearchAllowed(s.companyName) then s
    else match outcome
      case Found(results) => s.(searchResults := results, showResults := true)
      case Failed => s
  }

  /** The name field's onChange: store the value, then search when it is
      long enough, else hide the suggestions. */
  function OnNameChange(s: FormState, value: string, outcome: SearchOutcome): (t: FormState)
    ensures t.companyName == value && t.year == s.year && t.reprtCode == s.reprtCode
    ensures !SearchAllowed(value) ==> !t.showResults && t.searchResults == s.searchResults
    ensures SearchAllowed(value) ==> t == HandleSearch(s.(companyName := value), outcome)
  {
    var typed := s.(companyName := value);
    if SearchAllowed(value) then HandleSearch(typed, outcome)
    else typed.(showResults := false)
  }

  /** `handleCompanySelect`: take the company's name and hide the list. */
  function HandleCompanySelect(s: FormState, company: Company): (t: FormState)
    ensures t.companyName == company.name && !t.showResults
    ensures t.year == s.year && t.reprtCode == s.reprtCode && t.searchResults == s.searchResults
  {
    s.(companyName := company.name, showResults := false)
  }

  /** Choosing a year from the select. */
  function OnYearChange(s: FormState, year: string): (t: FormState)
    requires year in YearValues()
    ensures t.year == year && t.companyName == s.companyName && t.reprtCode == s.reprtCode
    ensures t.searchResults == s.searchResults && t.showResults == s.showResults
  {
    s.(year := year)
  }

  /** Choosing a report type from the select. */
  function OnReportChange(s: FormState, reprtCode: string): (t: FormState)
    requires reprtCode in ReportCodes()
    ensures t.reprtCode == reprtCode && t.companyName == s.companyName && t.year == s.year
    ensures t.searchResults == s.searchResults && t.showResults == s.showResults
  {
    s.(reprtCode := reprtCode)
  }

  /** `handleSubmit`: the analysis intent, issued only when the trimmed name
      is non-empty, carrying the name untrimmed with the chosen year and
      report code. */
  function HandleSubmit(s: FormState): (r: Option<CompanyRequest>)
    ensures r.Some? <==> exists i :: 0 <= i < |s.companyName| && !IsJsWhitespace(s.companyName[i])
    ensures r.Some? ==> r.value == CompanyRequest(s.companyName, s.year, s.reprtCode)
  {
    if Trim(s.companyName) != "" then Some(CompanyRequest(s.companyName, s.year, s.reprtCode))
    else None
  }

  /** The submit button's `disabled` attribute. */
  predicate SubmitDisabled(isLoading: bool, s: FormState) {
    isLoading || Trim(s.companyName) == ""
  }

  /** When not loading, the button is enabled exactly when a submit would
      issue an analysis. */
  lemma SubmitEnabledIffIssued(s: FormState)
    ensures !SubmitDisabled(false, s) <==> HandleSubmit(s).Some?
    ensures SubmitDisabled(true, s)
  {
  }

  /** The suggestion list is drawn when shown and non-empty. */
  predicate SuggestionsVisible(s: FormState) {
    s.showResults && |s.searchResults| > 0
  }

  /** The form's invariant: the selects hold listed options, and the
      suggestion list is only shown for a name long enough to search. */
  predicate Valid(s: FormState) {
    && s.year in YearValues()
    && s.reprtCode in ReportCodes()
    && (s.showResults ==> SearchAllowed(s.companyName))
  }

  lemma InitialValid()
    ensures Valid(Initial)
  {
    OptionsContainDefaults();
  }

  /** Every handler keeps the invariant. */
  lemma HandlersPreserveValid(s: FormState, value: string, outcome: SearchOutcome, company: Company)
    requires Valid(s)
    ensures Valid(HandleSearch(s, outcome))
    ensures Valid(OnNameChange(s, value, outcome))
    ensures Valid(HandleCompanySelect(s, company))
    ensures forall y :: y in YearValues() ==> Valid(OnYearChange(s, y))
    ensures forall c :: c in ReportCodes() ==> Valid(OnReportChange(s, c))
  {
  }

  /** Typing a value whose trimmed length is under two UTF-16 units hides
      the suggestions. */
  lemma ShortInputHidesSuggestions(s: FormState, value: string, outcome: SearchOutcome)
    requires Utf16Length(Trim(value)) < 2
    ensures !SuggestionsVisible(OnNameChange(s, value, outcome))
  {
  }
}

=== FILE: seqs.dfy ===
/** Sequence helpers shared by the backend and frontend models: first-match
    scan, filtering (pandas boolean indexing, JavaScript `filter`),
    first-appearance de-duplication (pandas `Series.unique`) and the
    arithmetic mean of a non-empty list of reals (`Series.mean`, `np.mean`). */
module Seqs {

  /** Position of the first occurrence of `x` in `s`. */
  function FirstIndex<T(==)>(s: seq<T>, x: T): (i: nat)
    requires x in s
    ensures i < |s| && s[i] == x
    ensures forall k :: 0 <= k < i ==> s[k] != x
  {
    if s[0] == x then 0 else 1 + FirstIndex(s[1..], x)
  }

  /** No element occurs twice. */
  ghost predicate NoDuplicates<T>(s: seq<T>) {
    forall i, j :: 0 <= i < j < |s| ==> s[i] != s[j]
  }

  /** Extending a sequence does not move the first occurrence of an element
      that already occurs in the prefix. */
  lemma FirstIndexOfPrefix<T>(s: seq<T>, n: nat, x: T)
    requires n <= |s| && x in s[..n]
    ensures FirstIndex(s, x) == FirstIndex(s[..n], x)
  {
    var i := FirstIndex(s[..n], x);
    var j := FirstIndex(s, x);
    assert s[i] == x;
    assert j <= i;
    assert s[..n][j] == x;
  }

  /** `u` lists the distinct elements of `s`, each once, in order of first
      appearance. */
  ghost predicate IsFirstAppearanceOrder<T(!new)>(s: seq<T>, u: seq<T>) {
    && NoDuplicates(u)
    && (forall x :: x in u <==> x in s)
    && (forall i, j :: 0 <= i < j < |u| ==> FirstIndex(s, u[i]) < FirstIndex(s, u[j]))
  }

  /** Appending one element to `s` keeps the first-appearance listing when
      the element is already listed, and extends it by that element otherwise. */
  lemma FirstAppearanceStep<T(!new)>(p: seq<T>, last: T, u: seq<T>)
    requires IsFirstAppearanceOrder(p, u)
    ensures last in u ==> IsFirstAppearanceOrder(p + [last], u)
    ensures last !in u ==> IsFirstAppearanceOrder(p + [last], u + [last])
  {
    var s := p + [last];
    assert s[..|p|] == p;
    forall x | x in p
      ensures FirstIndex(s, x) == FirstIndex(p, x)
    {
      FirstIndexOfPrefix(s, |p|, x);
    }
    if last !in u {
      assert last !in p;
      assert FirstIndex(s, last) == |p|;
      var v := u + [last];
      forall i, j | 0 <= i < j < |v|
        ensures FirstIndex(s, v[i]) < FirstIndex(s, v[j])
      {
        assert v[i] == u[i] && u[i] in p;
        if j == |u| {
          assert FirstIndex(s, v[i]) == FirstIndex(p, u[i]) < |p|;
        } else {
          assert v[j] == u[j];
        }
      }
    }
  }

  /** The distinct elements of `s`, each once, in order of first appearance. */
  function Unique<T(==,!new)>(s: seq<T>): (u: seq<T>)
    ensures IsFirstAppearanceOrder(s, u)
  {
    if s == [] then []
    else
      var p := s[..|s| - 1];
      var last := s[|s| - 1];
      var u := Unique(p);
      FirstAppearanceStep(p, last, u);
      assert s == p + [last];
      if last in u then u else u + [last]
  }

  /** The first position whose element satisfies `p`, or `|s|` when none does. */
  function FirstWhere<T>(s: seq<T>, p: T -> bool): (i: nat)
    ensures i <= |s|
    ensures i < |s| ==> p(s[i])
    ensures forall k :: 0 <= k < i ==> !p(s[k])
  {
    if s == [] then 0 else if p(s[0]) then 0 else 1 + FirstWhere(s[1..], p)
  }

  /** `FirstWhere` is pinned down by its defining property. */
  lemma FirstWhereIs<T>(s: seq<T>, p: T -> bool, k: nat)
    requires k <= |s|
    requires k < |s| ==> p(s[k])
    requires forall j :: 0 <= j < k ==> !p(s[j])
    ensures FirstWhere(s, p) == k
  {
  }

  /** The elements of `s` that satisfy `p`, in their original order (Python's
      list comprehension with a condition, JavaScript's `Array.filter`). */
  function Filter<T(==)>(s: seq<T>, p: T -> bool): (r: seq<T>)
    ensures |r| <= |s|
    ensures forall i :: 0 <= i < |r| ==> p(r[i])
  {
    if s == [] then []
    else (if p(s[0]) then [s[0]] else []) + Filter(s[1..], p)
  }

  /** An element is kept exactly when it occurs in the input and satisfies
      the condition. */
  lemma {:induction false} FilterMembership<T>(s: seq<T>, p: T -> bool, x: T)
    ensures x in Filter(s, p) <==> x in s && p(x)
  {
    if s != [] {
      FilterMembership(s[1..], p, x);
      assert s == [s[0]] + s[1..];
    }
  }

  /** An element that satisfies the condition survives the filter. */
  lemma {:induction false} FilterKeeps<T>(s: seq<T>, p: T -> bool, k: nat)
    requires k < |s| && p(s[k])
    ensures Filter(s, p) != []
  {
    if k > 0 && !p(s[0]) {
      FilterKeeps(s[1..], p, k - 1);
    }
  }

  /** Nothing survives when no element satisfies the condition. */
  lemma {:induction false} FilterNone<T>(s: seq<T>, p: T -> bool)
    requires forall i :: 0 <= i < |s| ==> !p(s[i])
    ensures Filter(s, p) == []
  {
    if s != [] {
      FilterNone(s[1..], p);
    }
  }

  /** Filtering distributes over concatenation, so it keeps the input order. */
  lemma {:induction false} FilterConcat<T>(a: seq<T>, b: seq<T>, p: T -> bool)
    ensures Filter(a + b, p) == Filter(a, p) + Filter(b, p)
  {
    if a != [] {
      assert (a + b)[1..] == a[1..] + b;
      FilterConcat(a[1..], b, p);
    } else {
      assert a + b == b;
    }
  }

  /** Filtering one more element of a prefix. */
  lemma FilterExtend<T>(s: seq<T>, i: nat, p: T -> bool)
    requires i < |s|
    ensures Filter(s[..i + 1], p) == Filter(s[..i], p) + (if p(s[i]) then [s[i]] else [])
  {
    assert s[..i + 1] == s[..i] + [s[i]];
    FilterConcat(s[..i], [s[i]], p);
  }

  /** Filtering a prefix gives a prefix of the filtered whole. */
  lemma FilterPrefix<T>(s: seq<T>, i: nat, p: T -> bool)
    requires i <= |s|
    ensures |Filter(s[..i], p)| <= |Filter(s, p)|
    ensures Filter(s, p)[..|Filter(s[..i], p)|] == Filter(s[..i], p)
  {
    assert s == s[..i] + s[i..];
    FilterConcat(s[..i], s[i..], p);
  }

  /** The first element kept by a filter is the first element satisfying
      the condition. */
  lemma {:induction false} FilterHead<T>(s: seq<T>, p: T -> bool)
    requires Filter(s, p) != []
    ensures FirstWhere(s, p) < |s|
    ensures Filter(s, p)[0] == s[FirstWhere(s, p)]
  {
    if !p(s[0]) {
      FilterHead(s[1..], p);
    }
  }

  /** Sum of a list of reals. */
  function Sum(xs: seq<real>): real {
    if xs == [] then 0.0 else xs[0] + Sum(xs[1..])
  }

  /** Arithmetic mean of a non-empty list of reals. */
  function Mean(xs: seq<real>): real
    requires |xs| > 0
  {
    Sum(xs) / |xs| as real
  }

  /** Every element lies in [lo, hi]. */
  ghost predicate AllWithin(xs: seq<real>, lo: real, hi: real) {
    forall i :: 0 <= i < |xs| ==> lo <= xs[i] <= hi
  }

  /** A sum of n elements from [lo, hi] lies in [n * lo, n * hi]. */
  lemma {:induction false} SumWithin(xs: seq<real>, lo: real, hi: real)
    requires AllWithin(xs, lo, hi)
    ensures |xs| as real * lo <= Sum(xs) <= |xs| as real * hi
  {
    if xs != [] {
      SumWithin(xs[1..], lo, hi);
      assert |xs| as real * lo == lo + (|xs| - 1) as real * lo;
      assert |xs| as real * hi == hi + (|xs| - 1) as real * hi;
    }
  }

  /** The mean of elements from [lo, hi] lies in [lo, hi]. */
  lemma MeanWithin(xs: seq<real>, lo: real, hi: real)
    requires |xs| > 0
    requires AllWithin(xs, lo, hi)
    ensures lo <= Mean(xs) <= hi
  {
    SumWithin(xs, lo, hi);
    var n := |xs| as real;
    assert Sum(xs) / n >= lo by {
      assert Sum(xs) >= n * lo;
    }
    assert Sum(xs) / n <= hi by {
      assert Sum(xs) <= n * hi;
    }
  }
}

=== FILE: text.dfy ===
/** The string primitives the backend and the frontend rely on: substring
    search (Python `in`, JavaScript `includes`), JavaScript's first-only
    `String.replace`, `String.trim`, case lowering and decimal printing. */
module Text {
  import opened Wrappers

  /** `pat` occurs in `s` starting at position `k`. */
  ghost predicate OccursAt(s: string, pat: string, k: int) {
    0 <= k && k + |pat| <= |s| && s[k..k + |pat|] == pat
  }

  /** The first position at or after `from` where `pat` occurs in `s`. */
  function IndexOfFrom(s: string, pat: string, from: nat): (r: Option<nat>)
    decreases |s| - from
    ensures r.Some? ==> from <= r.value && OccursAt(s, pat, r.value)
    ensures r.Some? ==> forall k :: from <= k < r.value ==> !OccursAt(s, pat, k)
    ensures r.None? ==> forall k :: from <= k ==> !OccursAt(s, pat, k)
  {
    if from + |pat| > |s| then None
    else if s[from..from + |pat|] == pat then Some(from)
    else IndexOfFrom(s, pat, from + 1)
  }

  /** The first position where `pat` occurs in `s` (JavaScript `indexOf`). */
  function IndexOf(s: string, pat: string): (r: Option<nat>)
    ensures r.Some? ==> OccursAt(s, pat, r.value)
    ensures r.Some? ==> forall k :: 0 <= k < r.value ==> !OccursAt(s, pat, k)
    ensures r.None? ==> forall k :: !OccursAt(s, pat, k)
  {
    IndexOfFrom(s, pat, 0)
  }

  /** Substring test: Python's `pat in s`, JavaScript's `s.includes(pat)`. */
  predicate Contains(s: string, pat: string) {
    IndexOf(s, pat).Some?
  }

  /** The substring test holds exactly when the pattern occurs somewhere. */
  lemma ContainsOccurs(s: string, pat: string)
    ensures Contains(s, pat) <==> exists k :: OccursAt(s, pat, k)
  {
  }

  /** A string contains itself. */
  lemma ContainsSelf(s: string)
    ensures Contains(s, s)
  {
    ContainsOccurs(s, s);
    assert s[0..|s|] == s;
    assert OccursAt(s, s, 0);
  }

  /** A one-character pattern occurs exactly when the character is a member. */
  lemma ContainsChar(s: string, c: char)
    ensures Contains(s, [c]) <==> c in s
  {
    ContainsOccurs(s, [c]);
    if c in s {
      var k :| 0 <= k < |s| && s[k] == c;
      assert s[k..k + 1] == [c];
      assert OccursAt(s, [c], k);
    }
    if Contains(s, [c]) {
      var k :| OccursAt(s, [c], k);
      assert s[k] == s[k..k + 1][0];
    }
  }

  /** The first occurrence of a one-character pattern is the first position
      holding that character. */
  lemma IndexOfChar(s: string, c: char, i: nat)
    requires i < |s| && s[i] == c
    requires forall k :: 0 <= k < i ==> s[k] != c
    ensures IndexOf(s, [c]) == Some(i)
  {
    assert s[i..i + 1] == [c];
    assert OccursAt(s, [c], i);
    var r := IndexOf(s, [c]);
    var j := r.value;
    assert s[j] == s[j..j + 1][0] == c;
  }

  /** A string that contains `pat` also contains every prefix of `pat`. */
  lemma ContainsPrefix(s: string, pat: string, n: nat)
    requires n <= |pat|
    ensures Contains(s, pat) ==> Contains(s, pat[..n])
  {
    ContainsOccurs(s, pat);
    ContainsOccurs(s, pat[..n]);
    if Contains(s, pat) {
      var k :| OccursAt(s, pat, k);
      assert s[k..k + n] == s[k..k + |pat|][..n];
      assert OccursAt(s, pat[..n], k);
    }
  }

  /** JavaScript `s.replace(pat, rep)` with a string pattern: only the first
      occurrence is replaced; without an occurrence the string is unchanged. */
  function ReplaceFirst(s: string, pat: string, rep: string): (r: string)
    ensures !Contains(s, pat) ==> r == s
    ensures Contains(s, pat) ==> |r| == |s| - |pat| + |rep|
  {
    match IndexOf(s, pat)
    case None => s
    case Some(i) => s[..i] + rep + s[i + |pat|..]
  }

  /** The characters ECMAScript's `String.prototype.trim` removes: the
      WhiteSpace code points (including every Zs space separator) and the
      LineTerminator code points. */
  predicate IsJsWhitespace(c: char) {
    c in {'\U{0009}', '\U{000B}', '\U{000C}', '\U{0020}', '\U{00A0}', '\U{FEFF}',
          '\U{1680}', '\U{2000}', '\U{2001}', '\U{2002}', '\U{2003}', '\U{2004}',
          '\U{2005}', '\U{2006}', '\U{2007}', '\U{2008}', '\U{2009}', '\U{200A}',
          '\U{202F}', '\U{205F}', '\U{3000}', '\U{000A}', '\U{000D}', '\U{2028}',
          '\U{2029}'}
  }

  /** The number of whitespace characters `s` starts with. */
  function LeadingWhitespace(s: string): (n: nat)
    ensures n <= |s|
    ensures forall i :: 0 <= i < n ==> IsJsWhitespace(s[i])
    ensures n < |s| ==> !IsJsWhitespace(s[n])
  {
    if |s| > 0 && IsJsWhitespace(s[0]) then 1 + LeadingWhitespace(s[1..]) else 0
  }

  /** Drops leading whitespace. */
  function TrimStart(s: string): (r: string)
    ensures r == s[LeadingWhitespace(s)..]
    ensures |r| > 0 ==> !IsJsWhitespace(r[0])
  {
    s[LeadingWhitespace(s)..]
  }

  /** Drops trailing whitespace. */
  function TrimEnd(s: string): (r: string)
    ensures |r| <= |s| && r == s[..|r|]
    ensures forall i :: |r| <= i < |s| ==> IsJsWhitespace(s[i])
    ensures |r| > 0 ==> !IsJsWhitespace(r[|r| - 1])
  {
    if |s| > 0 && IsJsWhitespace(s[|s| - 1]) then TrimEnd(s[..|s| - 1]) else s
  }

  /** JavaScript `s.trim()`: the slice of `s` that starts after its leading
      whitespace and ends before its trailing whitespace; everything cut off
      is whitespace, and the slice neither starts nor ends with whitespace. */
  function Trim(s: string): (r: string)
    ensures var k := LeadingWhitespace(s);
      && k + |r| <= |s| && r == s[k..k + |r|]
      && forall i :: k + |r| <= i < |s| ==> IsJsWhitespace(s[i])
    ensures r == "" <==> forall i :: 0 <= i < |s| ==> IsJsWhitespace(s[i])
    ensures |r| > 0 ==> !IsJsWhitespace(r[0]) && !IsJsWhitespace(r[|r| - 1])
  {
    TrimSlice(s);
    TrimEnd(TrimStart(s))
  }

  /** Trimming the end of the start-trimmed string cuts a slice of `s`
      bounded by whitespace on both sides. */
  lemma TrimSlice(s: string)
    ensures var k := LeadingWhitespace(s);
      var r := TrimEnd(TrimStart(s));
      && k + |r| <= |s| && r == s[k..k + |r|]
      && (forall i :: k + |r| <= i < |s| ==> IsJsWhitespace(s[i]))
      && (r == "" <==> forall i :: 0 <= i < |s| ==> IsJsWhitespace(s[i]))
  {
    var k := LeadingWhitespace(s);
    var t := TrimStart(s);
    var r := TrimEnd(t);
    assert t == s[k..];
    assert r == t[..|r|];
    forall i | k + |r| <= i < |s|
      ensures IsJsWhitespace(s[i])
    {
      assert s[i] == t[i - k];
    }
    if r == "" {
      assert k == |s|;
    } else {
      assert r[0] == s[k];
    }
  }

  /** How many UTF-16 code units a character takes: two for a code point
      above U+FFFF (a surrogate pair), one otherwise. */
  function Utf16Units(c: char): nat {
    if c as int > 0xFFFF then 2 else 1
  }

  /** JavaScript's `s.length`: the number of UTF-16 code units of `s`. */
  function Utf16Length(s: string): (n: nat)
    ensures |s| <= n <= 2 * |s|
  {
    if s == [] then 0 else Utf16Units(s[0]) + Utf16Length(s[1..])
  }

  /** Lower-casing of one character, for the ASCII letters. */
  function LowerChar(c: char): char {
    if 'A' <= c <= 'Z' then (c as int + 32) as char else c
  }

  /** Python `str.lower()`, restricted to the ASCII letters. */
  function Lower(s: string): (r: string)
    ensures |r| == |s|
    ensures forall i :: 0 <= i < |s| ==> r[i] == LowerChar(s[i])
  {
    seq(|s|, i requires 0 <= i < |s| => LowerChar(s[i]))
  }

  /** Lowering twice is lowering once. */
  lemma LowerIdempotent(s: string)
    ensures Lower(Lower(s)) == Lower(s)
  {
  }

  /** Decimal digits of a natural number, as JavaScript's `toString()` prints it. */
  function DecimalString(n: nat): (r: string)
    ensures |r| >= 1
    ensures forall i :: 0 <= i < |r| ==> '0' <= r[i] <= '9'
  {
    var d := ('0' as int + n % 10) as char;
    if n < 10 then [d] else DecimalString(n / 10) + [d]
  }
}

=== FILE: wrappers.dfy ===
/** Optional values and error-carrying results, standing in for Python's
    `None`, TypeScript's `null`/`undefined` and raised HTTP errors. */
module Wrappers {

  datatype Option<+T> = None | Some(value: T)

  datatype Result<+R, +E> = Ok(value: R) | Err(error: E)
}
